=== FILE: README.md ===
# Threat analyzer batch pipeline, modelled in Dafny

The application stages pieces of content (typed text, URLs, files) in a queue
and sends the whole queue to a classification oracle in one go. Only when
every answer has arrived does it create one analysis record per item in the
store. It then empties the queue and opens the analytics page with the new
ids in a `batch_ids` link. The read side has several parts:

- The history page filters the stored analyses by a search term and a label.
- The analytics page reads the link back, loads that batch and rolls the
  analyses up into risk and type distributions and a rounded average score.
- The batch card exports a CSV and shows summary counts.
- The detail card picks colours, icons and sections from the record.

This project models that pipeline as pure functions over immutable data and
proves what each step guarantees about its result.

- `wrappers.dfy` (`Wrappers`): `Option`, and `AllSome`/`Values` over
  sequences of outcomes.
- `seqs.dfy` (`Seqs`): order-preserving subsequences, a generic `Filter`
  (the `Array.prototype.filter` of every page) and `Prefix` (`slice(0, n)`).
- `text.dfy` (`Text`): `trim`, ASCII `toLowerCase`, `includes`,
  `split`/`join` on one separator, and the decimal rendering of numbers.
- `records.dfy` (`Records`): staged items, oracle answers with their
  optional fields, signal facets and analysis records.
- `labels.dfy` (`Labels`): the three label strings, the badge-style lookup
  shared by three components, and the exact-label and exact-type counts.
- `analyzer.dfy` (`Analyzer`): the queue, record normalisation and the
  all-or-nothing "Analyze All".
- `inputs.dfy` (`Inputs`): the trim guard of the manual-text and URL inputs.
- `history.dfy` (`History`): the search-and-label filter and "Clear History".
- `analytics.dfy` (`Analytics`): the `batch_ids` parameter, loading the
  batch, "Clear Data" and the rollups.
- `batch_results.dfy` (`BatchResults`): CSV export, summary counts and the
  ten-row table.
- `result_display.dfy` (`ResultDisplay`): the render branches, the score
  band, the icon and the evidence and mitigation sections.
- `pipeline.dfy` (`Pipeline`): properties that cross pages.

The oracle and the store are foreign code. One press of "Analyze All" is a
total function of the queue, of the outcome of each oracle call and of the
outcome of each create. The outcomes are given as sequences in queue order,
with `None` standing for a rejected call. "Clear History" and the batch load
are treated the same way. Generated ids, the answer to the confirmation
dialog and the query string are parameters as well.

Facts about the code that the model keeps:

- Labels are the strings `"No Risk"`, `"Low Risk"` and `"High Risk"`. Any
  other string can occur and is kept as it is.
- The average is `Math.round(sum / n)`, so scores 92 and 3 average to 48
  (`Pipeline.TwoAnalysesRollUp`).
- The oracle's answer is not validated. A missing list becomes `[]`, a
  missing `signals` becomes `{}`, and score, label and confidence are copied
  with no check or clamping.
- CSV cells are wrapped in quotes and a line feed inside a cell is written
  as is, so it adds a physical line to the file
  (`BatchResults.LineFeedInTextAddsALine`). The file has one line per result
  plus the header only when no field holds a line feed
  (`BatchResults.CsvHasOneLinePerRow`).
- After a committed batch the whole queue is emptied with
  `setStagedItems([])`.
- Creates are not rolled back. When one create fails, the records whose
  create succeeded stay in the store while the queue is kept
  (`Analyzer.FailedCreateKeepsEarlierRecord`). A failed delete in "Clear
  History" likewise leaves the page listing analyses that are already gone
  (`History.PartialClearListsDeletedAnalyses`).
- "Clear Data" on the analytics page deletes nothing in the store. It
  empties the page and drops `batch_ids` from the query.

## Model

Members without a row are helpers of the members that use them. Examples
are `Text.LeadingSpaces`, `Text.JoinTwo`, `BatchResults.TruncatedAvoids`
and `BatchResults.SampleCells`.

| member | source | states |
|---|---|---|
| Analyzer.AddItem | src/pages/Analyzer.jsx:26-28 | exactly one item `{id, type, content, name}` is appended at the end; every earlier item is unchanged and in its place |
| Analyzer.RemoveItem | src/pages/Analyzer.jsx:30-32 | an item stays exactly when its id differs from the removed one, with all its copies; the rest keep their order (a subsequence); the queue is unchanged exactly when no item has that id |
| Analyzer.RemoveAfterAdd | src/pages/Analyzer.jsx:26-32 | removing the id just added gives the same queue as removing it before the add, and the original queue when that id was new |
| Analyzer.Normalize | src/pages/Analyzer.jsx:77-90 | type, content and name become input type, raw text and file name; score, label, confidence and explanation are copied verbatim; a missing URL list or mitigation list becomes `[]` and missing signals become `{}`, while present values pass unchanged |
| Analyzer.NormalizeRoundTrip | src/pages/Analyzer.jsx:77-90 | the mapping invents and drops nothing: any record is the normalisation of the item and the full answer that report its fields |
| Analyzer.MissingEqualsEmpty | src/pages/Analyzer.jsx:82-88 | after normalisation an absent list or signals object cannot be told apart from an empty one |
| Analyzer.Contents | src/pages/Analyzer.jsx:38-41 | one content per staged item, in queue order, each the item's own content |
| Wrappers.Values | src/pages/Analyzer.jsx:76 | the values of a fully successful `Promise.all`, one per call and in call order |
| Analyzer.NormalizeAll | src/pages/Analyzer.jsx:77-90 | one create request per completed item, in queue order |
| Analyzer.Persist | src/pages/Analyzer.jsx:91 | every request is written exactly when every create succeeds; a written record always comes from a successful create of that request, and every successful create is written whatever its siblings did |
| Analyzer.AnalyzeAll | src/pages/Analyzer.jsx:34-101 | an empty queue is a no-op; every content is sent in order; a failed oracle call means no create and an unchanged queue; otherwise one create per item via `Normalize`; the queue is emptied and a link built exactly when every call and create succeeded; the link lists the created ids in queue order joined by `,`; a failed create keeps the queue and leaves fewer records than items, while every successful create stays written; the busy flag always ends false |
| Analyzer.FailedCreateKeepsEarlierRecord | src/pages/Analyzer.jsx:91-98 | with two items, a successful first create and a failed second one, the first record stays written while the queue is kept and no link is built |
| Analyzer.BatchLink | src/pages/Analyzer.jsx:95 | no ids give the empty value; one or more comma-free ids are split back out of the value in order |
| Analyzer.AnalyzeEnabled | src/pages/Analyzer.jsx:145 | the button is enabled exactly when no batch runs and a press would send at least one content |
| Analyzer.EnabledPressSettles | src/pages/Analyzer.jsx:145 | a press of the enabled button ends with the busy flag off, and the queue is empty exactly when a link is built |
| Inputs.HandleAdd | src/components/analyzer/input/ManualInput.jsx:10-15 | text is passed on exactly when it is not all white space, and then untrimmed with the field reset to `""`; blank text is ignored and the field keeps it |
| Inputs.AddEnabled | src/components/analyzer/input/ManualInput.jsx:34 | the button is enabled exactly when `HandleAdd` would accept, the same trim test also used at UrlInput.jsx line 33 |
| Inputs.SubmitManual | src/pages/Analyzer.jsx:126 | accepted text is queued as one `manual` item named `Manual Text`, exactly as typed; blank text changes neither queue nor field |
| Inputs.SubmitUrl | src/components/analyzer/input/UrlInput.jsx:10-15 | accepted URL text is queued whole as one `url` item named `URL Input`, with no line split or URL check; blank text changes neither queue nor field |
| Inputs.PaddedTextIsQueuedAsTyped | src/components/analyzer/input/ManualInput.jsx:12 | leading and trailing white space reach the queue: `"  a\n"` is queued as `"  a\n"` |
| Text.Trim | src/components/analyzer/input/ManualInput.jsx:11 | the trimmed text is a middle part of the text whose cut-off ends are all white space; it is empty exactly when the text is all white space, and otherwise starts and ends with a non-space |
| Text.Lower | src/pages/History.jsx:40-41 | same length; no capital ASCII letter is left; a character changes exactly when it is a capital, which becomes its small letter |
| Text.Includes | src/pages/History.jsx:40-41 | a prefix, the empty needle included, is found, and nothing longer than the text is found |
| History.Kept | src/pages/History.jsx:38-47 | a record is kept exactly when the term is empty or occurs at some index of the lowercased text or explanation, and the filter is `all` or equals its label |
| Seqs.Filter | src/pages/History.jsx:39 | the elements satisfying the test, in order: a subsequence holding exactly those elements, as long as the input exactly when all pass |
| Seqs.Prefix | src/components/analyzer/BatchResults.jsx:27 | the first n elements, or the whole sequence when it is shorter |
| History.FilterAnalyses | src/pages/History.jsx:35-50 | a record is kept exactly when (the term is empty or the lowercased text or explanation contains the lowercased term) and (the filter is `all` or equals its label); the result is an order-preserving subsequence, equal to the input exactly when every record is kept |
| History.FilterKeepsEveryCopy | src/pages/History.jsx:39-46 | every copy of a kept record is kept and every copy of a dropped record is dropped (multiplicities) |
| History.EmptyFilterIsIdentity | src/pages/History.jsx:36-48 | an empty term with `all` returns the list unchanged |
| History.FilterIdempotent | src/pages/History.jsx:35-50 | filtering the filtered list again with the same term and label changes nothing |
| History.UnknownLabelOnlyUnderAll | src/pages/History.jsx:45-47 | with one of the four filter buttons, a record whose label is not one of the three is shown only under `all` |
| Text.IncludesIffOccurs | src/pages/History.jsx:40-41 | `includes` holds exactly when the needle occurs at some index |
| History.ClearAllHistory | src/pages/History.jsx:95-106 | a delete is issued for the id of every loaded analysis, in order; the ids actually deleted are a subsequence of them holding every successful delete; when every delete succeeds they are all the ids and both lists are emptied; otherwise fewer ids are deleted and both lists stay unchanged; the busy flag ends false |
| History.Succeeded | src/pages/History.jsx:99 | the ids whose delete succeeded, in order: all of them exactly when every delete succeeded |
| History.PartialClearListsDeletedAnalyses | src/pages/History.jsx:99-104 | when one delete succeeds and another fails, the page still lists the analysis whose record is gone |
| Labels.RiskColor | src/pages/History.jsx:108-119 | each of the three labels gets its own colour class and every other label the neutral slate class; the same lookup is at BatchResults.jsx lines 10-21 and ResultDisplay.jsx lines 71-82 |
| Labels.CountLabel | src/pages/Analytics.jsx:99-101 | the count of records with exactly that label is at most the total, zero exactly when none has it, and the total exactly when all have it |
| Labels.KnownLabelCounts | src/pages/Analytics.jsx:98-102 | the three label counts add up to at most the number of records, and to exactly that number when every label is one of the three |
| Labels.CountKind | src/pages/Analytics.jsx:105-107 | the count of records with exactly that input type is at most the total, zero exactly when none has it, and the total exactly when all have it |
| Labels.KnownKindCounts | src/pages/Analytics.jsx:104-108 | the three type counts add up to at most the number of records, and to exactly that number when every type is `manual`, `file` or `url` |
| Analytics.GetParam | src/pages/Analytics.jsx:22-23 | no value exactly when no pair has the name; otherwise the value of the first pair with the name |
| Analytics.ParseBatchIds | src/pages/Analytics.jsx:21-25 | an absent or empty parameter gives no ids; otherwise at least one comma-free id, and joining the ids with `,` gives the parameter back |
| Text.SplitJoin | src/pages/Analytics.jsx:24 | splitting the joined parts gives the parts back when there is at least one part and none holds the separator |
| Text.JoinSplit | src/pages/Analytics.jsx:24 | joining the parts of a split gives the string back |
| Text.Split | src/pages/Analytics.jsx:24 | at least one part, none holding the separator |
| Text.Join | src/pages/Analyzer.jsx:95 | every character of the result is the separator or a character of some part |
| Text.JoinEnds | src/components/analyzer/BatchResults.jsx:33 | the joined text starts with the first part and ends with the last |
| Analytics.RefreshBatch | src/pages/Analytics.jsx:27-45 | the batch half of the effect (the `loadAnalyses` half is left out): with ids and every get successful, the batch results are the fetched records in id order; with no ids or a failed get the previous batch results stay; the batch spinner ends off either way |
| Analytics.HandleClearData | src/pages/Analytics.jsx:77-96 | a declined dialog changes nothing; a confirmed one empties both lists and stops both spinners, and navigates exactly when the query has `batch_ids`, to the query with every `batch_ids` pair removed and every copy of the other pairs kept in order |
| Analytics.ClearedQueryHasNoBatch | src/pages/Analytics.jsx:84-89 | after a confirmed clear the page reads no batch ids from its query |
| Analytics.RiskDistribution | src/pages/Analytics.jsx:98-102 | three slices in the fixed order No, Low, High Risk, each the number of records with exactly that label |
| Analytics.RiskDistributionTotal | src/pages/Analytics.jsx:98-102 | the slices add up to at most the number of records, with equality exactly when every label is recognised |
| Analytics.TypeDistribution | src/pages/Analytics.jsx:104-108 | three bars Manual, File, URL counting the input types `manual`, `file`, `url` exactly |
| Analytics.TypeDistributionTotal | src/pages/Analytics.jsx:104-108 | the bars add up to at most the number of records, with equality exactly when every input type is one of the three |
| Analytics.AverageScore | src/pages/Analytics.jsx:260-261 | 0 for no analyses; otherwise the integer nearest to the mean score, halves rounded up, as `Math.round` does |
| Analytics.AverageWithinScoreRange | src/pages/Analytics.jsx:260-261 | scores in 0..100 give an average in 0..100 |
| Records.SumScoresWithin | src/pages/Analytics.jsx:261 | the sum of n scores in `lo..hi` lies between `n*lo` and `n*hi` |
| BatchResults.RoundHalfUp | src/components/analyzer/BatchResults.jsx:30 | the nearest integer to a non-negative value, halves rounded up |
| BatchResults.ToFixed0 | src/components/analyzer/BatchResults.jsx:30 | the text is non-empty, may start with `-`, and every other character is a digit |
| BatchResults.ToFixed0Nearest | src/components/analyzer/BatchResults.jsx:30 | the text is a canonical numeral (at least one digit, no leading zero) for the integer nearest to the value, halves rounded away from zero, behind a `-` for a negative value |
| BatchResults.PercentText | src/components/analyzer/BatchResults.jsx:30 | a numeral followed by `%`; for a non-negative confidence the numeral is canonical (at least one digit, no leading zero) and denotes the whole percentage nearest to it |
| BatchResults.Truncated | src/components/analyzer/BatchResults.jsx:27 | the first n characters (code points) of the field, all of a shorter field, followed by an ellipsis that is always appended |
| Text.NatToString | src/components/analyzer/BatchResults.jsx:28 | a canonical numeral, at least one digit and no leading zero, denoting the number |
| Text.IntToString | src/components/analyzer/BatchResults.jsx:28 | the canonical numeral of the magnitude, behind a `-` exactly when the number is negative |
| Text.NumeralIsNatToString | src/components/analyzer/BatchResults.jsx:28 | every canonical numeral is the rendering of the number it denotes, so the numeral of a number is unique |
| BatchResults.CsvCells | src/components/analyzer/BatchResults.jsx:26-32 | five cells in header order: text cut to 50, score, label, confidence percent, explanation cut to 100 |
| BatchResults.CsvTable | src/components/analyzer/BatchResults.jsx:24-32 | a header row `Text, Score, Label, Confidence, Explanation` followed by one row per result in result order |
| BatchResults.CsvRowsHaveFiveCells | src/components/analyzer/BatchResults.jsx:25-32 | every row, the header included, has exactly five cells |
| BatchResults.Quote | src/components/analyzer/BatchResults.jsx:33 | the cell between two double quotes, its content unescaped |
| BatchResults.CsvLineSplitsIntoQuotedCells | src/components/analyzer/BatchResults.jsx:33 | a line of comma-free cells splits back on `,` into exactly the quoted cells, in order |
| BatchResults.ResultLineHasFiveFields | src/components/analyzer/BatchResults.jsx:26-33 | the line of a result whose text, explanation and label hold no comma has exactly five fields, its five cells each between quotes |
| BatchResults.CsvLines | src/components/analyzer/BatchResults.jsx:33 | the header line first, then the line of each result in result order |
| BatchResults.CsvLine | src/components/analyzer/BatchResults.jsx:33 | no cells give an empty line; otherwise the line opens with the first cell's quote and closes with the last cell's |
| BatchResults.Csv | src/components/analyzer/BatchResults.jsx:33 | the file opens with the header line and, with at least one result, closes with the last result's line |
| BatchResults.CsvHasOneLinePerRow | src/components/analyzer/BatchResults.jsx:33 | when no text, explanation or label holds a line feed, the file splits on `\n` into exactly its header line and one line per result |
| BatchResults.LineFeedInTextAddsALine | src/components/analyzer/BatchResults.jsx:27-33 | a single result whose text holds a line feed yields three lines rather than two, because a line feed inside a cell is written as is |
| BatchResults.SummaryStats | src/components/analyzer/BatchResults.jsx:44-48 | the total and the three exact-label counts; the counts add up to at most the total, with equality exactly when every label is one of the three |
| BatchResults.VisibleRows | src/components/analyzer/BatchResults.jsx:105 | the table shows the first ten results in order, or all of them when there are fewer |
| ResultDisplay.Render | src/components/analyzer/ResultDisplay.jsx:29-56 | the loading view whenever a batch runs, even with an analysis given; nothing without an analysis; the card otherwise |
| ResultDisplay.ScoreBand | src/components/analyzer/ResultDisplay.jsx:140-143 | green exactly for scores up to 19, amber exactly for 20 to 59, red exactly from 60 |
| ResultDisplay.ScoreBandMonotone | src/components/analyzer/ResultDisplay.jsx:140-143 | a higher score never gives a lower band |
| ResultDisplay.BandIgnoresLabel | src/components/analyzer/ResultDisplay.jsx:140-143 | the band does not depend on the label |
| ResultDisplay.LabelAndBandCanDisagree | src/components/analyzer/ResultDisplay.jsx:110-143 | a `High Risk` analysis with score 0 gets the cross icon and red badge next to a green gauge |
| ResultDisplay.RiskIcon | src/components/analyzer/ResultDisplay.jsx:58-69 | check, warning and cross icons for the three labels and the shield for every other label |
| ResultDisplay.SignalsOrEmpty | src/components/analyzer/ResultDisplay.jsx:98 | missing signals read as the empty object and present ones as they are |
| ResultDisplay.MissingSignalsShowNoEvidence | src/components/analyzer/ResultDisplay.jsx:98 | an analysis without signals shows no evidence section |
| ResultDisplay.EvidenceOf | src/components/analyzer/ResultDisplay.jsx:213-256 | a section for exactly the facets present; the safe-browsing badge is destructive and its details shown exactly when the verdict is not `safe`; the scan badge is destructive exactly when `positives > 0`; the text-model section shows spam and phishing percentages |
| ResultDisplay.MitigationsShown | src/components/analyzer/ResultDisplay.jsx:184 | the recommended actions are shown exactly when the list is present and not empty |
| ResultDisplay.CardOf | src/components/analyzer/ResultDisplay.jsx:108-256 | the card's icon and badge come from the label alone and the gauge band from the score alone; the confidence is the whole percentage; the explanation is shown as stored; the actions are the mitigation list when it is not empty and absent otherwise; the evidence comes from the signals |
| Pipeline.BatchLinkRoundTrip | src/pages/Analytics.jsx:21-25 | the ids the analytics page reads from the analyzer's link are the created ids in order, provided there is at least one id and every id is non-empty and holds none of `, + % & #` |
| Pipeline.CommaInIdSplitsIt | src/pages/Analytics.jsx:24 | an id `a,b` comes back as the two ids `a` and `b` |
| Pipeline.EmptyIdIsLost | src/pages/Analytics.jsx:24 | a link holding a single empty id reads as no batch |
| Pipeline.CommittedBatchReloads | src/pages/Analyzer.jsx:91-95 | after a committed batch whose ids are non-empty and hold none of `, + % & #`, the analytics page asks for exactly the created ids, and when the gets return the written records its batch results are exactly the records of the batch |
| Pipeline.TwoAnalysesRollUp | src/pages/Analytics.jsx:98-102 | analyses scored 92 (`High Risk`) and 3 (`No Risk`) give slices 1, 0, 1 and an average of 48 |
| Pipeline.SummaryMatchesDistribution | src/components/analyzer/BatchResults.jsx:44-48 | the summary tiles count the same records as the risk slices of the analytics page |
| Pipeline.CardShowsWhatTheOracleReported | src/components/analyzer/ResultDisplay.jsx:184-256 | the card of a normalised record shows an evidence section exactly for the facets the oracle reported, and actions exactly when it reported a non-empty mitigation list |

## Left out

- The oracle call, including the prompt text (src/pages/Analyzer.jsx:39-71) and the answer schema, is foreign. Only its outcome per item is modelled.
- The store's `create`, `get`, `delete` and `list` are foreign. Only their outcomes are modelled. The ordering and size limit of `list('-created_date', n)` and the page loads that call it are not modelled.
- Concurrency: `Promise.all` is modelled by its all-or-nothing result over the outcome sequence. The interleaving and calls still in flight after a failure are not modelled.
- Id generation from the clock and a random number is an input. Ids are not assumed to be unique.
- The file input is not modelled: it covers file reading and drag-and-drop. Its items bypass the non-empty guard.
- The query string is a list of name/value pairs. Percent-encoding, `createPageUrl` and `URLSearchParams.toString` are not modelled.
- Clipboard copy, JSON and CSV downloads, date formatting and chart rendering are browser I/O and are left out. The CSV content itself is modelled.
- The batch card's `avgScore` (src/components/analyzer/BatchResults.jsx:49) is left out. It is a floating-point division and gives NaN for no results.
- The pie-chart percentages, the 80-character text preview in the batch table and the score text on the card are presentation only.
- The files `Layout.js`, `StagedItemsList.jsx`, `StagedItem.jsx` and `BatchResultCard.jsx` are presentation only: icons, colours, navigation and animation.
- The collapsible state of the evidence breakdown is left out.
- BatchResults.ToFixed0: computed over exact reals. It does not model binary floating point or the exponent notation `toFixed` uses from 1e21 on.
- Text.Trim: the white space it removes is ASCII white space plus no-break space, byte-order mark and the line and paragraph separators. The other Unicode space separators are left out.
- Text.Lower: folds ASCII letters only. Locale-dependent case mapping is left out.
- Analyzer.Normalize: absence is the only "falsy" value modelled for the optional fields. Values of the wrong type (`null`, `0`, `""` where a list is expected) cannot occur in the typed answer.
- Staging during a running batch is not modelled. The add and remove buttons stay enabled while a batch runs, but the model treats the queue as fixed for one press. In the code `setStagedItems([])` (src/pages/Analyzer.jsx:94) also drops items added during the batch, and an item removed during the batch is still analysed.
- After "Clear Data" the navigation changes the query, which re-runs the page's load effect (src/pages/Analytics.jsx:27-34). That reload refills the analyses from the store. The model stops at the navigation.
- ResultDisplay.ScoreBand: scores are integers. The answer schema allows any number, so a score of 19.5 is amber in the code and exported as `19.5`, and the model cannot express it.
- BatchResults.CsvCells: assumes score, label, confidence and explanation are present. A missing text or explanation makes `slice` throw. A missing score renders as `undefined` and a missing confidence as `NaN`.
- Analytics.AverageScore: assumes every score is present and numeric. A missing score turns the average into `NaN`.
- History.FilterAnalyses: assumes every explanation and text is a string. A record without an explanation makes `toLowerCase` throw (src/pages/History.jsx:41).
- Analyzer.Normalize: assumes the oracle returns an object with score, label, confidence and explanation. A `null` answer throws at src/pages/Analyzer.jsx:82, after the creates of the items before it were already issued. A missing field is stored as absent. Neither path is modelled.
- BatchResults.Truncated: lengths count code points, while `slice` counts UTF-16 code units. A text with characters outside the Basic Multilingual Plane is therefore cut later than the code cuts it, and the model never splits a surrogate pair as the code can.
- Text.IntToString: scores are exact unbounded integers. A JavaScript score is a double, so `String` prints it in exponent notation from 1e21 on (`1e+21`), and above 2^53 it is not an exact integer at all. The rendering matches `String` only for magnitudes below 1e21. The sum in `Analytics.AverageScore` is exact only below 2^53.
- Pipeline.BatchLinkRoundTrip: the link is read back as the plain `batch_ids` value. `createPageUrl` is not part of this model, and URL normalisation by the router or browser is not modelled. The round trip is claimed only for ids free of the characters `URLSearchParams` decodes or splits on.

=== FILE: analytics.dfy ===
/** The analytics page: reading the `batch_ids` query parameter, loading the
    records of the last batch, "Clear Data", and the rollups over the loaded
    analyses (risk and type distributions, rounded average score). */
module Analytics {
  import opened Wrappers
  import opened Seqs
  import opened Text
  import opened Records
  import opened Labels

  /** One name/value pair of the query string. */
  datatype Param = Param(name: string, value: string)

  /** The parameter that carries the ids of the last batch. */
  const BatchParam := "batch_ids"

  /** `URLSearchParams.get(name)`: the value of the first pair with that
      name, if any. */
  function GetParam(params: seq<Param>, name: string): (v: Option<string>)
    ensures v.None? <==> forall i :: 0 <= i < |params| ==> params[i].name != name
    ensures v.Some? ==> exists i :: 0 <= i < |params| && params[i] == Param(name, v.value)
                                    && forall j :: 0 <= j < i ==> params[j].name != name
  {
    if |params| == 0 then None
    else if params[0].name == name then Some(params[0].value)
    else
      var v := GetParam(params[1..], name);
      assert forall i :: 1 <= i < |params| ==> params[1..][i - 1] == params[i];
      v
  }

  /** The `batchIds` memo: no parameter or an empty one gives no ids;
      otherwise the value split on `,`, every part comma-free, and joining
      the parts back gives the value. */
  function ParseBatchIds(param: Option<string>): (ids: seq<Id>)
    ensures param.None? || param == Some("") ==> ids == []
    ensures param.Some? && param.value != "" ==>
              && |ids| >= 1
              && Join(ids, ',') == param.value
              && forall i :: 0 <= i < |ids| ==> ',' !in ids[i]
  {
    if param.None? || param.value == "" then []
    else
      JoinSplit(param.value, ',');
      Split(param.value, ',')
  }

  /** The analytics page's state. */
  datatype AnalyticsState = AnalyticsState(
    analyses: seq<Record>,
    batchResults: seq<Record>,
    isLoading: bool,
    isBatchLoading: bool)

  /** The batch half of the effect run when the batch ids change, with the
      outcome of each `Analysis.get(id)`. The `loadAnalyses` half is left
      out, so the analyses and their spinner are untouched here. No ids only
      stops the batch spinner; otherwise the gets are joined, their records
      replace the batch results in id order, and a failed get leaves the
      previous batch results. The spinner ends off in every case. */
  function RefreshBatch(s: AnalyticsState, ids: seq<Id>, gets: seq<Option<Record>>)
    : (s': AnalyticsState)
    requires |gets| == |ids|
    ensures !s'.isBatchLoading
    ensures s'.analyses == s.analyses && s'.isLoading == s.isLoading
    ensures |ids| > 0 && AllSome(gets) ==>
              |s'.batchResults| == |ids| && forall i :: 0 <= i < |ids| ==> gets[i] == Some(s'.batchResults[i])
    ensures |ids| == 0 || !AllSome(gets) ==> s'.batchResults == s.batchResults
  {
    if |ids| > 0 && AllSome(gets) then s.(batchResults := Values(gets), isBatchLoading := false)
    else s.(isBatchLoading := false)
  }

  /** The test `name !== batch_ids` applied by `delete('batch_ids')`. */
  function OtherThanBatch(p: Param): bool {
    p.name != BatchParam
  }

  /** What "Clear Data" leaves behind: the page state and the query string
      navigated to, if the page navigates. */
  datatype ClearDataRun = ClearDataRun(state: AnalyticsState, navigateTo: Option<seq<Param>>)

  /** `handleClearData`, given the answer to the confirmation dialog: a
      declined dialog changes nothing; a confirmed one empties both lists,
      stops both spinners, and only when the query has `batch_ids` navigates
      to the same query without any `batch_ids` pair, the other pairs kept in
      order. No delete reaches the store. */
  function HandleClearData(s: AnalyticsState, confirmed: bool, params: seq<Param>): (run: ClearDataRun)
    ensures !confirmed ==> run == ClearDataRun(s, None)
    ensures confirmed ==> run.state == AnalyticsState([], [], false, false)
    ensures run.navigateTo.Some? <==> confirmed && GetParam(params, BatchParam).Some?
    ensures run.navigateTo.Some? ==>
              && (forall p :: p in run.navigateTo.value <==> p in params && p.name != BatchParam)
              && (forall p :: multiset(run.navigateTo.value)[p] ==
                               if p.name != BatchParam then multiset(params)[p] else 0)
              && IsSubseq(run.navigateTo.value, params)
  {
    if !confirmed then ClearDataRun(s, None)
    else
      var cleared := AnalyticsState([], [], false, false);
      FilterMultiset(params, OtherThanBatch);
      if GetParam(params, BatchParam).Some? then ClearDataRun(cleared, Some(Filter(params, OtherThanBatch)))
      else ClearDataRun(cleared, None)
  }

  /** After "Clear Data" the page reads no batch ids from its query. */
  lemma ClearedQueryHasNoBatch(s: AnalyticsState, params: seq<Param>)
    ensures var run := HandleClearData(s, true, params);
            ParseBatchIds(GetParam(if run.navigateTo.Some? then run.navigateTo.value else params, BatchParam)) == []
  {
  }

  /** One bar or slice of a chart. */
  datatype Bucket = Bucket(name: string, value: nat)

  /** `riskDistribution`: three slices, No, Low and High Risk in that order,
      each counting the records with exactly that label. */
  function RiskDistribution(rs: seq<Record>): (buckets: seq<Bucket>)
    ensures |buckets| == 3
    ensures buckets[0].name == NoRisk && buckets[1].name == LowRisk && buckets[2].name == HighRisk
    ensures forall i :: 0 <= i < 3 ==> buckets[i].value == CountLabel(rs, buckets[i].name)
  {
    [ Bucket(NoRisk, CountLabel(rs, NoRisk)),
      Bucket(LowRisk, CountLabel(rs, LowRisk)),
      Bucket(HighRisk, CountLabel(rs, HighRisk)) ]
  }

  /** The three slices cover at most all records, and all of them exactly
      when every label is one of the three. */
  lemma RiskDistributionTotal(rs: seq<Record>)
    ensures var b := RiskDistribution(rs);
            b[0].value + b[1].value + b[2].value <= |rs|
    ensures var b := RiskDistribution(rs);
            b[0].value + b[1].value + b[2].value == |rs|
            <==> forall i :: 0 <= i < |rs| ==> IsKnownLabel(rs[i].draft.riskLabel)
  {
    KnownLabelCounts(rs);
  }

  /** `typeDistribution`: bars Manual, File and URL in that order, counting
      the records whose input type is exactly `manual`, `file` or `url`. */
  function TypeDistribution(rs: seq<Record>): (buckets: seq<Bucket>)
    ensures |buckets| == 3
    ensures buckets[0] == Bucket("Manual", CountKind(rs, Manual))
    ensures buckets[1] == Bucket("File", CountKind(rs, File))
    ensures buckets[2] == Bucket("URL", CountKind(rs, Url))
  {
    [ Bucket("Manual", CountKind(rs, Manual)),
      Bucket("File", CountKind(rs, File)),
      Bucket("URL", CountKind(rs, Url)) ]
  }

  /** The three bars cover at most all records, and all of them exactly when
      every input type is one of the three. */
  lemma TypeDistributionTotal(rs: seq<Record>)
    ensures var b := TypeDistribution(rs);
            b[0].value + b[1].value + b[2].value <= |rs|
    ensures var b := TypeDistribution(rs);
            b[0].value + b[1].value + b[2].value == |rs|
            <==> forall i :: 0 <= i < |rs| ==> IsKnownKind(rs[i].draft.inputType)
  {
    KnownKindCounts(rs);
  }

  /** The "Avg. Risk Score" card: 0 for no records, otherwise
      `Math.round(sum / n)`, the integer nearest to the mean with halves
      rounded up. */
  function AverageScore(rs: seq<Record>): (avg: int)
    ensures |rs| == 0 ==> avg == 0
    ensures |rs| > 0 ==> 2 * |rs| * avg - |rs| <= 2 * SumScores(rs) < 2 * |rs| * avg + |rs|
  {
    if |rs| == 0 then 0
    else
      var n := |rs|;
      var q := (2 * SumScores(rs) + n) / (2 * n);
      assert 2 * SumScores(rs) + n == 2 * n * q + (2 * SumScores(rs) + n) % (2 * n);
      q
  }

  /** A quotient of a non-negative value below `k * b` lies in `0..k-1`. */
  lemma QuotientBelow(a: int, b: int, k: int)
    requires b > 0 && 0 <= a < k * b
    ensures 0 <= a / b < k
  {
  }

  /** The average of scores in `0..100` lies in `0..100`. */
  lemma AverageWithinScoreRange(rs: seq<Record>)
    requires ScoresWithin(rs, 0, 100)
    ensures 0 <= AverageScore(rs) <= 100
  {
    if |rs| > 0 {
      SumScoresWithin(rs, 0, 100);
      var n := |rs|;
      assert AverageScore(rs) == (2 * SumScores(rs) + n) / (2 * n);
      QuotientBelow(2 * SumScores(rs) + n, 2 * n, 101);
    }
  }
}

=== FILE: analyzer.dfy ===
/** The analyzer page: the staging queue (`addItem`, `removeItem`) and
    "Analyze All" (`handleAnalyzeAll`), which sends every staged item to the
    classification oracle, and only when every answer arrived creates one
    analysis per item, empties the queue and builds the batch link.

    The oracle and the store are foreign: one press of the button is modelled
    as a total function of the outcome of each oracle call and of each create,
    given as sequences in queue order (`None` is a rejected call). */
module Analyzer {
  import opened Wrappers
  import opened Seqs
  import opened Text
  import opened Records

  /** The page's state: the staged queue and the busy flag. */
  datatype AnalyzerState = AnalyzerState(staged: seq<StagedItem>, isAnalyzing: bool)

  /** `addItem(type, content, name)` with the generated id supplied: the new
      item goes at the end and nothing before it changes. */
  function AddItem(queue: seq<StagedItem>, id: Id, kind: string, content: string, name: string)
    : (q: seq<StagedItem>)
    ensures |q| == |queue| + 1
    ensures q[..|queue|] == queue
    ensures q[|queue|] == StagedItem(id, kind, content, name)
  {
    queue + [StagedItem(id, kind, content, name)]
  }

  /** The test `item.id !== id` of `removeItem`. */
  function KeepsOther(id: Id): StagedItem -> bool {
    (it: StagedItem) => it.id != id
  }

  /** `removeItem(id)`: drops every item with that id, keeps every copy of
      the others in order; an unknown id leaves the queue as it is. */
  function RemoveItem(queue: seq<StagedItem>, id: Id): (q: seq<StagedItem>)
    ensures forall it :: it in q <==> it in queue && it.id != id
    ensures forall it :: multiset(q)[it] == if it.id != id then multiset(queue)[it] else 0
    ensures IsSubseq(q, queue)
    ensures q == queue <==> forall i :: 0 <= i < |queue| ==> queue[i].id != id
  {
    FilterMultiset(queue, KeepsOther(id));
    Filter(queue, KeepsOther(id))
  }

  /** Removing the id just added undoes the add, on top of removing that id
      from the queue before it. */
  lemma RemoveAfterAdd(queue: seq<StagedItem>, id: Id, kind: string, content: string, name: string)
    ensures RemoveItem(AddItem(queue, id, kind, content, name), id) == RemoveItem(queue, id)
    ensures (forall i :: 0 <= i < |queue| ==> queue[i].id != id) ==>
              RemoveItem(AddItem(queue, id, kind, content, name), id) == queue
  {
    FilterConcat(queue, [StagedItem(id, kind, content, name)], KeepsOther(id));
  }

  /** The record fields for one item and its oracle answer (the object passed
      to `Analysis.create`): the item's kind, content and name, the four
      scalar answers verbatim (no range check, no clamping, no agreement of
      label and score), and `[]`, `{}`, `[]` for missing URL, signal and
      mitigation fields. */
  function Normalize(item: StagedItem, res: OracleResult): (d: Draft)
    ensures d.inputType == item.kind && d.rawText == item.content && d.fileName == item.name
    ensures d.score == res.score && d.riskLabel == res.riskLabel
    ensures d.confidence == res.confidence && d.explanation == res.explanation
    ensures d.extractedUrls == (if res.extractedUrls.Some? then res.extractedUrls.value else [])
    ensures d.signals == (if res.signals.Some? then res.signals.value else NoSignals)
    ensures d.mitigations == (if res.mitigations.Some? then res.mitigations.value else [])
  {
    Draft(
      inputType := item.kind,
      rawText := item.content,
      fileName := item.name,
      extractedUrls := res.extractedUrls.GetOr([]),
      score := res.score,
      riskLabel := res.riskLabel,
      confidence := res.confidence,
      signals := res.signals.GetOr(NoSignals),
      explanation := res.explanation,
      mitigations := res.mitigations.GetOr([]))
  }

  /** An oracle answer that reports every field of `d`. */
  function FullAnswer(d: Draft): OracleResult {
    OracleResult(d.score, d.riskLabel, d.confidence, d.explanation,
                 Some(d.mitigations), Some(d.signals), Some(d.extractedUrls))
  }

  /** Every record is reachable: an item and an answer that report all of
      its fields normalise to exactly that record. */
  lemma NormalizeRoundTrip(d: Draft, id: Id)
    ensures Normalize(StagedItem(id, d.inputType, d.rawText, d.fileName), FullAnswer(d)) == d
  {
  }

  /** A missing list or signals object and an empty one give the same record:
      the defaults make "absent" and "empty" indistinguishable afterwards. */
  lemma MissingEqualsEmpty(item: StagedItem, res: OracleResult)
    ensures Normalize(item, res.(mitigations := None)) == Normalize(item, res.(mitigations := Some([])))
    ensures Normalize(item, res.(extractedUrls := None)) == Normalize(item, res.(extractedUrls := Some([])))
    ensures Normalize(item, res.(signals := None)) == Normalize(item, res.(signals := Some(NoSignals)))
  {
  }

  /** The contents sent to the oracle, one per staged item, in queue order. */
  function Contents(items: seq<StagedItem>): (cs: seq<string>)
    ensures |cs| == |items|
    ensures forall i :: 0 <= i < |items| ==> cs[i] == items[i].content
  {
    seq(|items|, i requires 0 <= i < |items| => items[i].content)
  }

  /** One create request per item, in queue order. */
  function NormalizeAll(items: seq<StagedItem>, answers: seq<OracleResult>): (ds: seq<Draft>)
    requires |answers| == |items|
    ensures |ds| == |items|
    ensures forall i :: 0 <= i < |items| ==> ds[i] == Normalize(items[i], answers[i])
  {
    seq(|items|, i requires 0 <= i < |items| => Normalize(items[i], answers[i]))
  }

  /** The records a group of creates leaves in the store: those whose create
      succeeded, in request order. Creates that succeeded stay written even
      when a sibling fails (nothing is rolled back). */
  function Persist(drafts: seq<Draft>, ids: seq<Option<Id>>): (rs: seq<Record>)
    requires |ids| == |drafts|
    ensures |rs| <= |drafts|
    ensures |rs| == |drafts| <==> AllSome(ids)
    ensures AllSome(ids) ==>
              forall i :: 0 <= i < |rs| ==> rs[i] == Record(ids[i].value, drafts[i])
    ensures forall r :: r in rs ==>
              exists i :: 0 <= i < |ids| && ids[i] == Some(r.id) && drafts[i] == r.draft
    ensures forall i :: 0 <= i < |ids| && ids[i].Some? ==> Record(ids[i].value, drafts[i]) in rs
  {
    if |drafts| == 0 then []
    else
      var rest := Persist(drafts[1..], ids[1..]);
      assert forall i :: 1 <= i < |ids| ==> ids[1..][i - 1] == ids[i] && drafts[1..][i - 1] == drafts[i];
      if ids[0].Some? then [Record(ids[0].value, drafts[0])] + rest else rest
  }

  /** The value of the `batch_ids` parameter of the page navigated to after a
      committed batch: the created ids joined with `,`. No ids give the empty
      value; comma-free ids are split back out of it in order. */
  function BatchLink(ids: seq<Id>): (link: string)
    ensures |ids| == 0 ==> link == ""
    ensures |ids| >= 1 && (forall i :: 0 <= i < |ids| ==> ',' !in ids[i]) ==> Split(link, ',') == ids
  {
    assert |ids| >= 1 && (forall i :: 0 <= i < |ids| ==> ',' !in ids[i]) ==> Split(Join(ids, ','), ',') == ids by {
      if |ids| >= 1 && forall i :: 0 <= i < |ids| ==> ',' !in ids[i] {
        SplitJoin(ids, ',');
      }
    }
    Join(ids, ',')
  }

  /** What one press of "Analyze All" leaves behind: the page state, the
      contents sent to the oracle, the create requests issued, the records the
      store now holds from this run, and the `batch_ids` value navigated to
      (only after a committed batch). */
  datatype BatchRun = BatchRun(
    state: AnalyzerState,
    asked: seq<string>,
    createRequests: seq<Draft>,
    persisted: seq<Record>,
    link: Option<string>)

  /** The batch commits: the queue was not empty, every oracle call and every
      create succeeded. */
  predicate Commits(s: AnalyzerState, answers: seq<Option<OracleResult>>, created: seq<Option<Id>>) {
    |s.staged| > 0 && AllSome(answers) && AllSome(created)
  }

  /** `handleAnalyzeAll`, given the outcome of each oracle call (`answers`)
      and of each create (`created`), in queue order. */
  function AnalyzeAll(s: AnalyzerState, answers: seq<Option<OracleResult>>, created: seq<Option<Id>>)
    : (run: BatchRun)
    requires |answers| == |s.staged| && |created| == |s.staged|
    // an empty queue: no call, no create, state untouched
    ensures |s.staged| == 0 ==> run == BatchRun(s, [], [], [], None)
    // otherwise every item is sent, in queue order, and the busy flag ends false
    ensures |s.staged| > 0 ==>
              && |run.asked| == |s.staged|
              && (forall i :: 0 <= i < |s.staged| ==> run.asked[i] == s.staged[i].content)
              && !run.state.isAnalyzing
    // one failed oracle call: nothing is created and the queue stays
    ensures !AllSome(answers) ==>
              run.createRequests == [] && run.persisted == [] && run.link == None
              && run.state.staged == s.staged
    // all answers in: one create per item, in queue order
    ensures |s.staged| > 0 && AllSome(answers) ==>
              && |run.createRequests| == |s.staged|
              && forall i :: 0 <= i < |s.staged| ==>
                   run.createRequests[i] == Normalize(s.staged[i], answers[i].value)
    // what is written is exactly what a successful create returned an id for
    ensures forall r :: r in run.persisted ==>
              exists i :: 0 <= i < |created| && i < |run.createRequests|
                          && created[i] == Some(r.id) && run.createRequests[i] == r.draft
    // the queue is emptied, and a link built, exactly when the batch commits
    ensures run.state.staged == (if Commits(s, answers, created) then [] else s.staged)
    ensures run.link.Some? <==> Commits(s, answers, created)
    ensures Commits(s, answers, created) ==>
              && |run.persisted| == |s.staged|
              && (forall i :: 0 <= i < |s.staged| ==>
                    run.persisted[i] == Record(created[i].value, run.createRequests[i]))
              && run.link == Some(BatchLink(Values(created)))
    // a failed create keeps the queue, and fewer records than items are written
    ensures |s.staged| > 0 && AllSome(answers) && !AllSome(created) ==>
              run.state.staged == s.staged && |run.persisted| < |s.staged|
    // every create that succeeded stays written, whatever its siblings did
    ensures |s.staged| > 0 && AllSome(answers) ==>
              forall i :: 0 <= i < |created| && created[i].Some? ==>
                Record(created[i].value, run.createRequests[i]) in run.persisted
  {
    if |s.staged| == 0 then
      BatchRun(s, [], [], [], None)
    else
      var asked := Contents(s.staged);
      if !AllSome(answers) then
        BatchRun(AnalyzerState(s.staged, false), asked, [], [], None)
      else
        var drafts := NormalizeAll(s.staged, Values(answers));
        var written := Persist(drafts, created);
        if AllSome(created) then
          BatchRun(AnalyzerState([], false), asked, drafts, written, Some(BatchLink(Values(created))))
        else
          BatchRun(AnalyzerState(s.staged, false), asked, drafts, written, None)
  }

  /** The "Analyze All" button is enabled: the queue has items and no batch
      is running, so a press sends at least one content to the oracle. */
  function AnalyzeEnabled(s: AnalyzerState): (enabled: bool)
    ensures enabled <==> !s.isAnalyzing && Contents(s.staged) != []
  {
    |s.staged| > 0 && !s.isAnalyzing
  }

  /** A press on the enabled button always ends with the busy flag false and
      either an empty queue with a link or the same queue without one. */
  lemma EnabledPressSettles(s: AnalyzerState, answers: seq<Option<OracleResult>>, created: seq<Option<Id>>)
    requires AnalyzeEnabled(s)
    requires |answers| == |s.staged| && |created| == |s.staged|
    ensures !AnalyzeAll(s, answers, created).state.isAnalyzing
    ensures AnalyzeAll(s, answers, created).state.staged == [] <==> AnalyzeAll(s, answers, created).link.Some?
  {
  }

  /** Nothing is rolled back: when the first of two creates succeeds and the
      second fails, the first record stays written while the queue is kept
      and no link is built. */
  lemma FailedCreateKeepsEarlierRecord(a: StagedItem, b: StagedItem, ra: OracleResult, rb: OracleResult, id: Id)
    ensures var run := AnalyzeAll(AnalyzerState([a, b], true), [Some(ra), Some(rb)], [Some(id), None]);
            && run.persisted == [Record(id, Normalize(a, ra))]
            && run.state.staged == [a, b]
            && run.link == None
  {
    var drafts := NormalizeAll([a, b], Values([Some(ra), Some(rb)]));
    assert drafts[1..] == [drafts[1]];
    assert Persist(drafts[1..], [None]) == [];
  }
}

=== FILE: batch_results.dfy ===
/** The batch results card: the CSV export, the summary counts and the table
    of the first rows. */
module BatchResults {
  import opened Seqs
  import opened Text
  import opened Records
  import opened Labels

  /** The rounding of `toFixed(0)` for a non-negative value: the nearest
      integer, halves rounded up. */
  function RoundHalfUp(x: real): (n: nat)
    requires x >= 0.0
    ensures n as real - 0.5 <= x < n as real + 0.5
  {
    (x + 0.5).Floor
  }

  /** `x.toFixed(0)` over exact reals: the nearest integer in decimal, with a
      `-` in front of a negative value (so a small negative value gives
      `"-0"`). */
  function ToFixed0(x: real): (s: string)
    ensures |s| >= 1 && (s[0] == '-' || '0' <= s[0] <= '9')
    ensures forall i :: 1 <= i < |s| ==> '0' <= s[i] <= '9'
  {
    if x < 0.0 then "-" + NatToString(RoundHalfUp(-x)) else NatToString(RoundHalfUp(x))
  }

  /** `ToFixed0` renders the integer nearest to its argument, halves rounded
      away from zero, as a canonical numeral behind an optional `-`. */
  lemma ToFixed0Nearest(x: real)
    ensures var s := ToFixed0(x);
            x >= 0.0 ==> IsNumeral(s) && DigitsValue(s) as real - 0.5 <= x < DigitsValue(s) as real + 0.5
    ensures var s := ToFixed0(x);
            x < 0.0 ==> |s| >= 2 && s[0] == '-' && IsNumeral(s[1..])
                        && DigitsValue(s[1..]) as real - 0.5 <= -x < DigitsValue(s[1..]) as real + 0.5
  {
    if x < 0.0 {
      assert ToFixed0(x)[1..] == NatToString(RoundHalfUp(-x));
    }
  }

  /** The Confidence cell: `(confidence * 100).toFixed(0) + '%'`, the whole
      percentage nearest to the confidence followed by a percent sign. */
  function PercentText(confidence: real): (t: string)
    ensures |t| >= 2 && t[|t| - 1] == '%'
    ensures confidence >= 0.0 ==>
              var digits := t[..|t| - 1];
              && IsNumeral(digits)
              && DigitsValue(digits) as real - 0.5 <= confidence * 100.0 < DigitsValue(digits) as real + 0.5
  {
    var n := ToFixed0(confidence * 100.0);
    ToFixed0Nearest(confidence * 100.0);
    assert (n + "%")[..|n|] == n;
    n + "%"
  }

  /** A field no longer than the limit is kept whole, ellipsis added. */
  lemma ShortTextIsKept(s: string, n: nat)
    requires |s| <= n
    ensures Truncated(s, n) == s + "..."
  {
  }

  /** `s.slice(0, n) + '...'`: the first `n` characters of `s` (all of a
      shorter `s`) followed by an ellipsis that is always added. */
  function Truncated(s: string, n: nat): (cell: string)
    ensures |cell| == (if |s| < n then |s| else n) + 3
    ensures cell[..|cell| - 3] <= s
    ensures cell[|cell| - 3..] == "..."
  {
    var head := Prefix(s, n);
    assert (head + "...")[..|head|] == head;
    head + "..."
  }

  /** The header row of the export. */
  const CsvHeader: seq<string> := ["Text", "Score", "Label", "Confidence", "Explanation"]

  /** The five cells exported for one result, in header order: text cut to
      50 characters plus `...`, the score, the label, the confidence as a
      whole percentage, the explanation cut to 100 characters plus `...`. */
  function CsvCells(r: Record): (cells: seq<string>)
    ensures |cells| == 5
    ensures cells[0] == Truncated(r.draft.rawText, 50)
    ensures cells[1] == IntToString(r.draft.score)
    ensures cells[2] == r.draft.riskLabel
    ensures cells[3] == PercentText(r.draft.confidence)
    ensures cells[4] == Truncated(r.draft.explanation, 100)
  {
    var text := Truncated(r.draft.rawText, 50);
    var score := IntToString(r.draft.score);
    var confidence := PercentText(r.draft.confidence);
    var explanation := Truncated(r.draft.explanation, 100);
    [text, score, r.draft.riskLabel, confidence, explanation]
  }

  /** The rows of the export: the header, then one row per result in result
      order. */
  function CsvTable(results: seq<Record>): (rows: seq<seq<string>>)
    ensures |rows| == |results| + 1
    ensures rows[0] == CsvHeader
    ensures forall i :: 1 <= i < |rows| ==> rows[i] == CsvCells(results[i - 1])
  {
    seq(|results| + 1, i requires 0 <= i <= |results| => if i == 0 then CsvHeader else CsvCells(results[i - 1]))
  }

  /** Every row of the export, the header included, has five cells. */
  lemma CsvRowsHaveFiveCells(results: seq<Record>)
    ensures forall i :: 0 <= i < |CsvTable(results)| ==> |CsvTable(results)[i]| == 5
  {
    var rows := CsvTable(results);
    assert |CsvHeader| == 5;
    forall i | 1 <= i < |rows|
      ensures |rows[i]| == 5
    {
      assert rows[i] == CsvCells(results[i - 1]);
    }
  }

  /** One cell between double quotes; a quote inside the cell is not
      escaped. */
  function Quote(cell: string): (q: string)
    ensures |q| == |cell| + 2 && q[0] == '"' && q[|q| - 1] == '"' && q[1..|q| - 1] == cell
  {
    "\"" + cell + "\""
  }

  /** One line of the file: the quoted cells joined with `,`, so a line of
      at least one cell opens with the first cell's quote and closes with the
      last cell's. */
  function CsvLine(cells: seq<string>): (line: string)
    ensures |cells| == 0 ==> line == ""
    ensures |cells| >= 1 ==> |line| >= 2 && line[0] == '"' && line[|line| - 1] == '"'
  {
    var quoted := seq(|cells|, i requires 0 <= i < |cells| => Quote(cells[i]));
    var line := Join(quoted, ',');
    assert |cells| >= 1 ==> quoted[0] <= line && line[|line| - |quoted[|cells| - 1]|..] == quoted[|cells| - 1] by {
      if |cells| >= 1 {
        JoinEnds(quoted, ',');
      }
    }
    line
  }

  /** The lines of the file: the header line, then the line of each result
      in result order. */
  function CsvLines(results: seq<Record>): (lines: seq<string>)
    ensures |lines| == |results| + 1
    ensures lines[0] == CsvLine(CsvHeader)
    ensures forall i :: 1 <= i < |lines| ==> lines[i] == CsvLine(CsvCells(results[i - 1]))
  {
    var rows := CsvTable(results);
    seq(|rows|, i requires 0 <= i < |rows| => CsvLine(rows[i]))
  }

  /** `exportResults`' file content: the lines joined with `\n`, opening
      with the header line and closing with the line of the last result. */
  function Csv(results: seq<Record>): (file: string)
    ensures CsvLine(CsvHeader) <= file
    ensures |results| >= 1 ==>
              var last := CsvLine(CsvCells(results[|results| - 1]));
              |last| <= |file| && file[|file| - |last|..] == last
  {
    var lines := CsvLines(results);
    assert lines[0] == CsvLine(CsvHeader);
    assert |results| >= 1 ==> lines[|lines| - 1] == CsvLine(CsvCells(results[|results| - 1]));
    JoinEnds(lines, '\n');
    Join(lines, '\n')
  }

  /** No exported field of any result contains a line feed. */
  predicate NoLineFeeds(results: seq<Record>) {
    forall i :: 0 <= i < |results| ==>
      '\n' !in results[i].draft.rawText && '\n' !in results[i].draft.explanation
      && '\n' !in results[i].draft.riskLabel
  }

  /** A cell without a line feed stays without one once quoted. */
  lemma QuotedCellsHaveNoLineFeed(cells: seq<string>)
    requires forall i :: 0 <= i < |cells| ==> '\n' !in cells[i]
    ensures '\n' !in CsvLine(cells)
  {
    var quoted := seq(|cells|, i requires 0 <= i < |cells| => Quote(cells[i]));
    forall i | 0 <= i < |quoted|
      ensures '\n' !in quoted[i]
    {
      assert quoted[i] == "\"" + cells[i] + "\"";
    }
  }

  /** A truncated field holds only characters of the field and dots. */
  lemma TruncatedAvoids(s: string, n: nat, c: char)
    requires c !in s && c != '.'
    ensures c !in Truncated(s, n)
  {
    var cell := Truncated(s, n);
    assert cell == cell[..|cell| - 3] + "...";
    forall i | 0 <= i < |cell| - 3
      ensures cell[i] != c
    {
      assert cell[i] == s[i];
    }
  }

  /** A rendered number holds only digits, `-` and `%`. */
  lemma NumberTextAvoids(score: int, confidence: real, c: char)
    requires c != '-' && c != '%' && !('0' <= c <= '9')
    ensures c !in IntToString(score) && c !in PercentText(confidence)
  {
    var r := IntToString(score);
    if score < 0 {
      assert forall i :: 1 <= i < |r| ==> r[i] == r[1..][i - 1];
    }
    var f := ToFixed0(confidence * 100.0);
    assert PercentText(confidence) == f + "%";
  }

  /** The line of a result whose fields hold no line feed has none either. */
  lemma RowHasNoLineFeed(r: Record)
    requires '\n' !in r.draft.rawText && '\n' !in r.draft.explanation && '\n' !in r.draft.riskLabel
    ensures '\n' !in CsvLine(CsvCells(r))
  {
    var cells := CsvCells(r);
    TruncatedAvoids(r.draft.rawText, 50, '\n');
    assert '\n' !in cells[0];
    TruncatedAvoids(r.draft.explanation, 100, '\n');
    assert '\n' !in cells[4];
    NumberTextAvoids(r.draft.score, r.draft.confidence, '\n');
    assert '\n' !in cells[1] && '\n' !in cells[3];
    assert '\n' !in cells[2];
    QuotedCellsHaveNoLineFeed(cells);
  }

  /** A line of cells without commas splits back on `,` into exactly its
      quoted cells, one field per cell. */
  lemma CsvLineSplitsIntoQuotedCells(cells: seq<string>)
    requires |cells| >= 1
    requires forall i :: 0 <= i < |cells| ==> ',' !in cells[i]
    ensures Split(CsvLine(cells), ',') == seq(|cells|, i requires 0 <= i < |cells| => Quote(cells[i]))
  {
    var quoted := seq(|cells|, i requires 0 <= i < |cells| => Quote(cells[i]));
    forall i | 0 <= i < |quoted|
      ensures ',' !in quoted[i]
    {
      assert quoted[i] == "\"" + cells[i] + "\"";
    }
    SplitJoin(quoted, ',');
  }

  /** The line of a result whose text, explanation and label hold no comma
      has five comma-separated fields: its five cells, each quoted. */
  lemma ResultLineHasFiveFields(r: Record)
    requires ',' !in r.draft.rawText && ',' !in r.draft.explanation && ',' !in r.draft.riskLabel
    ensures var fields := Split(CsvLine(CsvCells(r)), ',');
            && |fields| == 5
            && forall i :: 0 <= i < 5 ==> fields[i] == Quote(CsvCells(r)[i])
  {
    var cells := CsvCells(r);
    TruncatedAvoids(r.draft.rawText, 50, ',');
    assert ',' !in cells[0];
    TruncatedAvoids(r.draft.explanation, 100, ',');
    assert ',' !in cells[4];
    NumberTextAvoids(r.draft.score, r.draft.confidence, ',');
    assert ',' !in cells[1] && ',' !in cells[3];
    assert ',' !in cells[2];
    CsvLineSplitsIntoQuotedCells(cells);
  }

  /** When no field holds a line feed, the file splits back on `\n` into
      exactly its lines: the header and one line per result, `n + 1` in all. */
  lemma CsvHasOneLinePerRow(results: seq<Record>)
    requires NoLineFeeds(results)
    ensures Split(Csv(results), '\n') == CsvLines(results)
    ensures |Split(Csv(results), '\n')| == |results| + 1
  {
    var rows := CsvTable(results);
    var lines := CsvLines(results);
    assert lines[0] == CsvLine(CsvHeader);
    HeaderHasNoLineFeed();
    forall i | 1 <= i < |lines|
      ensures '\n' !in lines[i]
    {
      assert lines[i] == CsvLine(CsvCells(results[i - 1]));
      RowHasNoLineFeed(results[i - 1]);
    }
    SplitJoin(lines, '\n');
  }

  /** A line whose first cell is `a\nb...` and whose other cells hold no
      line feed splits into two pieces at the line feed. */
  lemma SampleLineSplitsInTwo(cells: seq<string>)
    requires |cells| == 5 && cells[0] == "a\nb..."
    requires forall i :: 1 <= i < 5 ==> '\n' !in cells[i]
    ensures |Split(CsvLine(cells), '\n')| == 2
  {
    var quoted := seq(5, i requires 0 <= i < 5 => Quote(cells[i]));
    var others := quoted[1..];
    assert others == seq(4, i requires 0 <= i < 4 => Quote(cells[1..][i]));
    QuotedCellsHaveNoLineFeed(cells[1..]);
    var tail := "b...\"" + [','] + Join(others, ',');
    assert CsvLine(cells) == quoted[0] + [','] + Join(others, ',');
    assert quoted[0] == "\"a" + ['\n'] + "b...\"";
    assert CsvLine(cells) == "\"a" + ['\n'] + tail;
    assert '\n' !in tail;
    SplitWithoutSeparator(tail, '\n');
    SplitAtSeparator("\"a", tail, '\n');
  }

  /** The header line holds no line feed. */
  lemma HeaderHasNoLineFeed()
    ensures '\n' !in CsvLine(CsvHeader)
  {
    QuotedCellsHaveNoLineFeed(CsvHeader);
  }

  /** The file of a single result: the header line, a line feed, and the
      result's line. */
  lemma CsvOfOne(r: Record)
    ensures Csv([r]) == CsvLine(CsvHeader) + ['\n'] + CsvLine(CsvCells(r))
  {
    JoinTwo(CsvLines([r]), '\n');
  }

  /** The first cell of a result with text `a\nb` is `a\nb...`. */
  lemma SampleFirstCell(d: Draft)
    requires d.rawText == "a\nb"
    ensures CsvCells(Record("x", d))[0] == "a\nb..."
  {
    ShortTextIsKept(d.rawText, 50);
    assert "a\nb" + "..." == "a\nb...";
  }

  /** The cells of a result with text `a\nb` start with `a\nb...`, and no
      other cell holds a line feed when the explanation and label hold none. */
  lemma SampleCells(d: Draft)
    requires d.rawText == "a\nb"
    requires '\n' !in d.explanation && '\n' !in d.riskLabel
    ensures var cells := CsvCells(Record("x", d));
            && |cells| == 5 && cells[0] == "a\nb..."
            && forall i :: 1 <= i < 5 ==> '\n' !in cells[i]
  {
    var cells := CsvCells(Record("x", d));
    SampleFirstCell(d);
    TruncatedAvoids(d.explanation, 100, '\n');
    assert '\n' !in cells[4];
    NumberTextAvoids(d.score, d.confidence, '\n');
    assert '\n' !in cells[1] && '\n' !in cells[3];
    assert '\n' !in cells[2];
  }

  /** A line feed inside a cell is written as is: a result whose text holds
      one adds a line, so one result gives three lines instead of two. */
  lemma LineFeedInTextAddsALine(d: Draft)
    requires d.rawText == "a\nb"
    requires '\n' !in d.explanation && '\n' !in d.riskLabel
    ensures |Split(Csv([Record("x", d)]), '\n')| == 3
  {
    var r := Record("x", d);
    var header := CsvLine(CsvHeader);
    var line := CsvLine(CsvCells(r));
    SampleCells(d);
    SampleLineSplitsInTwo(CsvCells(r));
    HeaderHasNoLineFeed();
    CsvOfOne(r);
    SplitAtSeparator(header, line, '\n');
  }

  /** The summary tiles. */
  datatype Summary = Summary(total: nat, noRisk: nat, lowRisk: nat, highRisk: nat)

  /** `summaryStats`: the number of results and how many carry each of the
      three labels; the three never add up to more than the total, and to the
      total exactly when every label is one of the three. */
  function SummaryStats(results: seq<Record>): (s: Summary)
    ensures s.total == |results|
    ensures s.noRisk == CountLabel(results, NoRisk)
    ensures s.lowRisk == CountLabel(results, LowRisk)
    ensures s.highRisk == CountLabel(results, HighRisk)
    ensures s.noRisk + s.lowRisk + s.highRisk <= s.total
    ensures s.noRisk + s.lowRisk + s.highRisk == s.total
            <==> forall i :: 0 <= i < |results| ==> IsKnownLabel(results[i].draft.riskLabel)
  {
    KnownLabelCounts(results);
    Summary(|results|, CountLabel(results, NoRisk), CountLabel(results, LowRisk), CountLabel(results, HighRisk))
  }

  /** The table rows: the first ten results, in order. */
  function VisibleRows(results: seq<Record>): (rows: seq<Record>)
    ensures |rows| == if |results| < 10 then |results| else 10
    ensures rows <= results
  {
    Prefix(results, 10)
  }
}

=== FILE: history.dfy ===
/** The history page: the search-and-label filter over the loaded analyses and
    "Clear History", which deletes every loaded analysis in the store. */
module History {
  import opened Seqs
  import opened Text
  import opened Records
  import opened Labels

  /** The label filter value that lets every label through. */
  const ShowAll := "all"

  /** The filter buttons: `"all"` and the three labels. */
  predicate IsFilterChoice(filter: string) {
    filter == ShowAll || IsKnownLabel(filter)
  }

  /** The lowercased text or explanation contains the lowercased term. */
  predicate SearchHit(r: Record, term: string) {
    || Includes(Lower(r.draft.rawText), Lower(term))
    || Includes(Lower(r.draft.explanation), Lower(term))
  }

  /** The condition under which a record stays in the list: the term is empty
      or the lowercased term occurs at some index of the lowercased text or
      explanation, and the filter is `"all"` or equals its label. */
  function Kept(r: Record, term: string, filter: string): (kept: bool)
    ensures kept <==>
              && (|| term == ""
                  || (exists i :: OccursAt(Lower(r.draft.rawText), Lower(term), i))
                  || (exists i :: OccursAt(Lower(r.draft.explanation), Lower(term), i)))
              && (filter == ShowAll || r.draft.riskLabel == filter)
  {
    IncludesIffOccurs(Lower(r.draft.rawText), Lower(term));
    IncludesIffOccurs(Lower(r.draft.explanation), Lower(term));
    && (term == "" || SearchHit(r, term))
    && (filter == ShowAll || r.draft.riskLabel == filter)
  }

  /** The search step's test. */
  function MatchesTerm(term: string): Record -> bool {
    (r: Record) => SearchHit(r, term)
  }

  /** The label step's test. */
  function HasLabel(filter: string): Record -> bool {
    (r: Record) => r.draft.riskLabel == filter
  }

  /** `filterAnalyses`: search first (skipped for an empty term), then the
      label filter (skipped for `"all"`). The result holds exactly the records
      that are `Kept`, in their original order. */
  function FilterAnalyses(rs: seq<Record>, term: string, filter: string): (out: seq<Record>)
    ensures forall r :: r in out <==> r in rs && Kept(r, term, filter)
    ensures IsSubseq(out, rs)
    ensures out == rs <==> forall i :: 0 <= i < |rs| ==> Kept(rs[i], term, filter)
  {
    var searched := if term != "" then Filter(rs, MatchesTerm(term)) else rs;
    var out := if filter != ShowAll then Filter(searched, HasLabel(filter)) else searched;
    SubseqReflexive(rs);
    SubseqReflexive(searched);
    SubseqTransitive(out, searched, rs);
    out
  }

  /** Each record is kept with all its copies or not at all. */
  lemma FilterKeepsEveryCopy(rs: seq<Record>, term: string, filter: string)
    ensures forall r :: multiset(FilterAnalyses(rs, term, filter))[r] ==
                          if Kept(r, term, filter) then multiset(rs)[r] else 0
  {
    var searched := if term != "" then Filter(rs, MatchesTerm(term)) else rs;
    if term != "" {
      FilterMultiset(rs, MatchesTerm(term));
    }
    if filter != ShowAll {
      FilterMultiset(searched, HasLabel(filter));
    }
  }

  /** No search term and `"all"` show the list unchanged. */
  lemma EmptyFilterIsIdentity(rs: seq<Record>)
    ensures FilterAnalyses(rs, "", ShowAll) == rs
  {
  }

  /** Filtering a filtered list again with the same term and label changes
      nothing. */
  lemma FilterIdempotent(rs: seq<Record>, term: string, filter: string)
    ensures FilterAnalyses(FilterAnalyses(rs, term, filter), term, filter) == FilterAnalyses(rs, term, filter)
  {
    var out := FilterAnalyses(rs, term, filter);
    assert forall i :: 0 <= i < |out| ==> out[i] in out;
  }

  /** The label filter is exact equality: a record whose label is none of the
      three shows up under a filter button only when that button is "all". */
  lemma UnknownLabelOnlyUnderAll(rs: seq<Record>, term: string, filter: string)
    requires IsFilterChoice(filter)
    ensures (exists r :: r in FilterAnalyses(rs, term, filter) && !IsKnownLabel(r.draft.riskLabel))
            ==> filter == ShowAll
  {
  }

  /** The history page's state. */
  datatype HistoryState = HistoryState(analyses: seq<Record>, filtered: seq<Record>, isClearing: bool)

  /** What "Clear History" leaves behind: the page state, the ids a delete
      was issued for, and the ids whose delete succeeded (gone from the store
      whatever the page shows). */
  datatype ClearRun = ClearRun(state: HistoryState, deleteRequests: seq<Id>, deleted: seq<Id>)

  /** The ids whose delete succeeded, in request order. */
  function Succeeded(ids: seq<Id>, ok: seq<bool>): (out: seq<Id>)
    requires |ok| == |ids|
    ensures IsSubseq(out, ids)
    ensures |out| <= |ids|
    ensures |out| == |ids| <==> forall i :: 0 <= i < |ok| ==> ok[i]
    ensures (forall i :: 0 <= i < |ok| ==> ok[i]) ==> out == ids
    ensures forall i :: 0 <= i < |ids| && ok[i] ==> ids[i] in out
  {
    if |ids| == 0 then []
    else
      var rest := Succeeded(ids[1..], ok[1..]);
      assert forall i :: 1 <= i < |ids| ==> ids[1..][i - 1] == ids[i] && ok[1..][i - 1] == ok[i];
      assert ids == [ids[0]] + ids[1..];
      if ok[0] then [ids[0]] + rest else rest
  }

  /** `clearAllHistory`, given whether each delete succeeded: a delete is
      issued for every loaded analysis; the lists are emptied only when all of
      them succeed and stay as they were otherwise, although the deletes that
      did succeed are not undone; the busy flag ends false. */
  function ClearAllHistory(s: HistoryState, ok: seq<bool>): (run: ClearRun)
    requires |ok| == |s.analyses|
    ensures |run.deleteRequests| == |s.analyses|
    ensures forall i :: 0 <= i < |s.analyses| ==> run.deleteRequests[i] == s.analyses[i].id
    ensures IsSubseq(run.deleted, run.deleteRequests)
    ensures forall i :: 0 <= i < |s.analyses| && ok[i] ==> s.analyses[i].id in run.deleted
    ensures !run.state.isClearing
    ensures (forall i :: 0 <= i < |ok| ==> ok[i]) ==>
              run.deleted == run.deleteRequests && run.state.analyses == [] && run.state.filtered == []
    ensures !(forall i :: 0 <= i < |ok| ==> ok[i]) ==>
              |run.deleted| < |s.analyses| && run.state.analyses == s.analyses && run.state.filtered == s.filtered
  {
    var ids := seq(|s.analyses|, i requires 0 <= i < |s.analyses| => s.analyses[i].id);
    var gone := Succeeded(ids, ok);
    if forall i :: 0 <= i < |ok| ==> ok[i] then
      ClearRun(HistoryState([], [], false), ids, gone)
    else
      ClearRun(HistoryState(s.analyses, s.filtered, false), ids, gone)
  }

  /** A partly failed clear keeps listing analyses whose records are already
      gone: every loaded analysis stays on the page, including one whose
      delete succeeded, while some other delete failed. */
  lemma PartialClearListsDeletedAnalyses(s: HistoryState, ok: seq<bool>, i: nat, j: nat)
    requires |ok| == |s.analyses| && i < |ok| && j < |ok| && ok[i] && !ok[j]
    ensures var run := ClearAllHistory(s, ok);
            && run.state.analyses == s.analyses
            && s.analyses[i] in run.state.analyses
            && s.analyses[i].id in run.deleted
            && run.deleted != run.deleteRequests
  {
  }
}

=== FILE: inputs.dfy ===
/** The manual-text and URL inputs. Both keep one text field; "Add to Queue"
    passes the field's text to the queue only when its trimmed form is not
    empty, passes it untrimmed and unsplit, and then empties the field. The
    button is disabled by the same trim test. */
module Inputs {
  import opened Wrappers
  import opened Text
  import opened Records
  import opened Labels
  import Analyzer

  /** What `handleAdd` did: the content handed to `onAddItem`, if any, and
      the text field afterwards. */
  datatype AddOutcome = AddOutcome(emitted: Option<string>, field: string)

  /** `handleAdd` of either input: accepts exactly the texts that are not
      blank, hands them over unchanged and resets the field; a blank text is
      ignored and the field keeps it. */
  function HandleAdd(text: string): (o: AddOutcome)
    ensures o.emitted.Some? <==> !IsBlank(text)
    ensures o.emitted.Some? ==> o.emitted.value == text && o.field == ""
    ensures o.emitted.None? ==> o.field == text
  {
    if Trim(text) != "" then AddOutcome(Some(text), "") else AddOutcome(None, text)
  }

  /** The button's `disabled={!text.trim()}`, negated: enabled exactly when
      `HandleAdd` would accept the text. */
  function AddEnabled(text: string): (enabled: bool)
    ensures enabled <==> HandleAdd(text).emitted.Some?
    ensures enabled <==> !IsBlank(text)
  {
    Trim(text) != ""
  }

  /** The manual input wired to the page: `addItem('manual', content,
      'Manual Text')` for an accepted text. Returns the queue and the field. */
  function SubmitManual(queue: seq<StagedItem>, text: string, id: Id)
    : (r: (seq<StagedItem>, string))
    ensures IsBlank(text) ==> r == (queue, text)
    ensures !IsBlank(text) ==> r == (queue + [StagedItem(id, Manual, text, "Manual Text")], "")
  {
    var o := HandleAdd(text);
    if o.emitted.Some? then (Analyzer.AddItem(queue, id, Manual, o.emitted.value, "Manual Text"), o.field)
    else (queue, o.field)
  }

  /** The URL input wired to the page: `addItem('url', content, 'URL Input')`
      for an accepted text. The whole field is one item, whatever lines or
      URLs it holds. */
  function SubmitUrl(queue: seq<StagedItem>, text: string, id: Id)
    : (r: (seq<StagedItem>, string))
    ensures IsBlank(text) ==> r == (queue, text)
    ensures !IsBlank(text) ==> r == (queue + [StagedItem(id, Url, text, "URL Input")], "")
  {
    var o := HandleAdd(text);
    if o.emitted.Some? then (Analyzer.AddItem(queue, id, Url, o.emitted.value, "URL Input"), o.field)
    else (queue, o.field)
  }

  /** Surrounding white space is kept: a padded text is queued as typed. */
  lemma PaddedTextIsQueuedAsTyped(queue: seq<StagedItem>, id: Id)
    ensures SubmitManual(queue, "  a\n", id) == (queue + [StagedItem(id, Manual, "  a\n", "Manual Text")], "")
  {
    assert !IsSpace('a');
    assert !IsBlank("  a\n") by { assert "  a\n"[2] == 'a'; }
  }
}

=== FILE: labels.dfy ===
/** Risk labels and input kinds: the three labels the oracle is asked for, the
    badge style each page gives a label, and counting records by label or by
    kind. Labels are plain strings, so a label outside the three is a value
    like any other. */
module Labels {
  import opened Records

  const NoRisk := "No Risk"
  const LowRisk := "Low Risk"
  const HighRisk := "High Risk"

  const Manual := "manual"
  const File := "file"
  const Url := "url"

  /** One of the three labels the pages know. */
  predicate IsKnownLabel(riskLabel: string) {
    riskLabel == NoRisk || riskLabel == LowRisk || riskLabel == HighRisk
  }

  /** One of the three input kinds the pages know. */
  predicate IsKnownKind(kind: string) {
    kind == Manual || kind == File || kind == Url
  }

  const NoRiskStyle := "text-emerald-700 bg-emerald-50 border-emerald-200"
  const LowRiskStyle := "text-amber-700 bg-amber-50 border-amber-200"
  const HighRiskStyle := "text-red-700 bg-red-50 border-red-200"
  const NeutralStyle := "text-slate-700 bg-slate-50 border-slate-200"

  /** `getRiskColor`: a green, amber or red badge for the three labels and
      the neutral slate badge for every other label. The same lookup is
      written out in the history page, the batch table and the result view. */
  function RiskColor(riskLabel: string): (style: string)
    ensures style == NeutralStyle <==> !IsKnownLabel(riskLabel)
    ensures riskLabel == NoRisk <==> style == NoRiskStyle
    ensures riskLabel == LowRisk <==> style == LowRiskStyle
    ensures riskLabel == HighRisk <==> style == HighRiskStyle
  {
    if riskLabel == NoRisk then NoRiskStyle
    else if riskLabel == LowRisk then LowRiskStyle
    else if riskLabel == HighRisk then HighRiskStyle
    else NeutralStyle
  }

  /** The number of records whose label is exactly `riskLabel`
      (`filter(a => a.label === label).length`). */
  function CountLabel(rs: seq<Record>, riskLabel: string): (n: nat)
    ensures n <= |rs|
    ensures n == 0 <==> forall i :: 0 <= i < |rs| ==> rs[i].draft.riskLabel != riskLabel
    ensures n == |rs| <==> forall i :: 0 <= i < |rs| ==> rs[i].draft.riskLabel == riskLabel
  {
    if |rs| == 0 then 0
    else (if rs[0].draft.riskLabel == riskLabel then 1 else 0) + CountLabel(rs[1..], riskLabel)
  }

  /** The number of records whose input kind is exactly `kind`. */
  function CountKind(rs: seq<Record>, kind: string): (n: nat)
    ensures n <= |rs|
    ensures n == 0 <==> forall i :: 0 <= i < |rs| ==> rs[i].draft.inputType != kind
    ensures n == |rs| <==> forall i :: 0 <= i < |rs| ==> rs[i].draft.inputType == kind
  {
    if |rs| == 0 then 0
    else (if rs[0].draft.inputType == kind then 1 else 0) + CountKind(rs[1..], kind)
  }

  /** The three label counts never exceed the number of records, and they
      add up to it exactly when every label is one of the three: a record
      with any other label is counted nowhere. */
  lemma {:induction false} KnownLabelCounts(rs: seq<Record>)
    ensures CountLabel(rs, NoRisk) + CountLabel(rs, LowRisk) + CountLabel(rs, HighRisk) <= |rs|
    ensures CountLabel(rs, NoRisk) + CountLabel(rs, LowRisk) + CountLabel(rs, HighRisk) == |rs|
            <==> forall i :: 0 <= i < |rs| ==> IsKnownLabel(rs[i].draft.riskLabel)
  {
    if |rs| > 0 {
      KnownLabelCounts(rs[1..]);
    }
  }

  /** The three kind counts never exceed the number of records, and they add
      up to it exactly when every kind is manual, file or url. */
  lemma {:induction false} KnownKindCounts(rs: seq<Record>)
    ensures CountKind(rs, Manual) + CountKind(rs, File) + CountKind(rs, Url) <= |rs|
    ensures CountKind(rs, Manual) + CountKind(rs, File) + CountKind(rs, Url) == |rs|
            <==> forall i :: 0 <= i < |rs| ==> IsKnownKind(rs[i].draft.inputType)
  {
    if |rs| > 0 {
      KnownKindCounts(rs[1..]);
    }
  }
}

=== FILE: pipeline.dfy ===
/** Properties that span pages: the batch link written by the analyzer and
    read back by the analytics page, the rollups of a small batch, and the
    agreement between the record built from an oracle answer and what the
    detail card shows of it. */
module Pipeline {
  import opened Wrappers
  import opened Text
  import opened Records
  import opened Labels
  import Analyzer
  import Analytics
  import BatchResults
  import ResultDisplay

  /** A character the link carries unchanged: not the separator, and none
      of the characters `URLSearchParams` reads specially in a query value
      (`+` becomes a space, `%` starts an escape, `&` ends the pair, `#`
      starts the fragment). */
  predicate LinkChar(c: char) {
    c != ',' && c != '+' && c != '%' && c != '&' && c != '#'
  }

  /** Ids that survive the trip through the link: none is empty and every
      character of each is a `LinkChar`. */
  predicate LinkSafe(ids: seq<Id>) {
    forall i :: 0 <= i < |ids| ==> ids[i] != "" && forall j :: 0 <= j < |ids[i]| ==> LinkChar(ids[i][j])
  }

  /** The query string of the page the analyzer navigates to. */
  function BatchQuery(link: string): seq<Analytics.Param> {
    [Analytics.Param(Analytics.BatchParam, link)]
  }

  /** The ids the analytics page reads from the analyzer's link. */
  function IdsFromLink(link: string): seq<Id> {
    Analytics.ParseBatchIds(Analytics.GetParam(BatchQuery(link), Analytics.BatchParam))
  }

  /** Splitting the joined ids gives the same ids in the same order. */
  lemma BatchLinkRoundTrip(ids: seq<Id>)
    requires |ids| >= 1 && LinkSafe(ids)
    ensures IdsFromLink(Analyzer.BatchLink(ids)) == ids
  {
    SplitJoin(ids, ',');
    if |ids| == 1 {
      assert Join(ids, ',') == ids[0];
    }
  }

  /** An id holding a comma comes back as two ids. */
  lemma CommaInIdSplitsIt()
    ensures IdsFromLink(Analyzer.BatchLink(["a,b"])) == ["a", "b"]
  {
    assert Join(["a,b"], ',') == "a" + [','] + "b";
    SplitAtSeparator("a", "b", ',');
    SplitWithoutSeparator("b", ',');
  }

  /** A single empty id is lost: its link reads as no batch at all. */
  lemma EmptyIdIsLost()
    ensures IdsFromLink(Analyzer.BatchLink([""])) == []
  {
  }

  /** After a committed batch the analytics page asks for exactly the created
      ids, in queue order; when each get returns the record just written, the
      batch results are exactly the records of the batch. */
  lemma CommittedBatchReloads(
    s: Analyzer.AnalyzerState, answers: seq<Option<OracleResult>>, created: seq<Option<Id>>,
    page: Analytics.AnalyticsState, gets: seq<Option<Record>>)
    requires |answers| == |s.staged| && |created| == |s.staged|
    requires Analyzer.Commits(s, answers, created) && LinkSafe(Values(created))
    requires |gets| == |s.staged|
    requires forall i :: 0 <= i < |gets| ==> gets[i] == Some(Analyzer.AnalyzeAll(s, answers, created).persisted[i])
    ensures var run := Analyzer.AnalyzeAll(s, answers, created);
            && IdsFromLink(run.link.value) == Values(created)
            && Analytics.RefreshBatch(page, IdsFromLink(run.link.value), gets).batchResults == run.persisted
  {
    var run := Analyzer.AnalyzeAll(s, answers, created);
    BatchLinkRoundTrip(Values(created));
    var loaded := Analytics.RefreshBatch(page, Values(created), gets);
    assert |loaded.batchResults| == |run.persisted|;
    forall i | 0 <= i < |run.persisted|
      ensures loaded.batchResults[i] == run.persisted[i]
    {
      assert gets[i] == Some(loaded.batchResults[i]);
    }
  }

  /** Two analyses scored 92 (`High Risk`) and 3 (`No Risk`): one slice each
      for No and High Risk, none for Low Risk, and an average of 48, the mean
      47.5 rounded half up. */
  lemma TwoAnalysesRollUp(a: Draft, b: Draft)
    requires a.score == 92 && a.riskLabel == HighRisk
    requires b.score == 3 && b.riskLabel == NoRisk
    ensures var rs := [Record("1", a), Record("2", b)];
            && Analytics.RiskDistribution(rs)
               == [Analytics.Bucket(NoRisk, 1), Analytics.Bucket(LowRisk, 0), Analytics.Bucket(HighRisk, 1)]
            && Analytics.AverageScore(rs) == 48
  {
    var rs := [Record("1", a), Record("2", b)];
    assert rs[1..] == [Record("2", b)] && rs[1..][1..] == [];
    assert SumScores(rs[1..]) == 3 + SumScores([]);
    assert SumScores(rs) == 95;
  }

  /** The summary tiles of the batch card and the pie slices of the
      analytics page count the same records. */
  lemma SummaryMatchesDistribution(rs: seq<Record>)
    ensures var s := BatchResults.SummaryStats(rs);
            var d := Analytics.RiskDistribution(rs);
            && s.noRisk == d[0].value && s.lowRisk == d[1].value && s.highRisk == d[2].value
            && (s.noRisk + s.lowRisk + s.highRisk == s.total <==> d[0].value + d[1].value + d[2].value == |rs|)
  {
  }

  /** The detail card of an analysis built from an oracle answer shows an
      evidence section exactly for the facets the oracle reported, and the
      recommended actions exactly when it reported a non-empty list. */
  lemma CardShowsWhatTheOracleReported(item: StagedItem, res: OracleResult, id: Id)
    ensures var card := ResultDisplay.CardOf(Record(id, Analyzer.Normalize(item, res)));
            && (card.evidence.safeBrowsing.Some? <==> res.signals.Some? && res.signals.value.safeBrowsing.Some?)
            && (card.evidence.virusTotal.Some? <==> res.signals.Some? && res.signals.value.virusTotal.Some?)
            && (card.evidence.textModel.Some? <==> res.signals.Some? && res.signals.value.textModel.Some?)
            && (card.actions.Some? <==> res.mitigations.Some? && |res.mitigations.value| > 0)
  {
  }
}

=== FILE: records.dfy ===
/** The entities of the batch pipeline: a staged item waiting in the queue, the
    structured answer the classification oracle gives for one item, and the
    analysis record built from the two and kept by the store. */
module Records {
  import opened Wrappers

  /** An identifier: of a staged item (generated when the item is added) or of
      a stored analysis (assigned by the store on create). */
  type Id = string

  /** The URL-reputation facet (`signals.safe_browsing`). */
  datatype SafeBrowsing = SafeBrowsing(verdict: string, details: string)

  /** The crowdsourced-scan facet (`signals.virustotal`). */
  datatype VirusTotal = VirusTotal(positives: int, total: int, reputation: string)

  /** The text-model facet (`signals.text_model`). */
  datatype TextModel = TextModel(spamProb: real, misinfoProb: real, phishProb: real, summary: string)

  /** The `signals` object: each facet may be absent. */
  datatype Signals = Signals(
    safeBrowsing: Option<SafeBrowsing>,
    virusTotal: Option<VirusTotal>,
    textModel: Option<TextModel>)

  /** The empty signals object `{}`. */
  const NoSignals := Signals(None, None, None)

  /** One entry of the analysis queue: `{id, type, content, name}`. The kind
      is `"manual"`, `"url"` or `"file"` as the inputs supply it. */
  datatype StagedItem = StagedItem(id: Id, kind: string, content: string, name: string)

  /** The oracle's answer for one item. The four scalar fields are whatever the
      oracle returned; the three list/object fields may be missing. */
  datatype OracleResult = OracleResult(
    score: int,
    riskLabel: string,
    confidence: real,
    explanation: string,
    mitigations: Option<seq<string>>,
    signals: Option<Signals>,
    extractedUrls: Option<seq<string>>)

  /** The fields of an analysis as they are sent to the store's `create`. */
  datatype Draft = Draft(
    inputType: string,
    rawText: string,
    fileName: string,
    extractedUrls: seq<string>,
    score: int,
    riskLabel: string,
    confidence: real,
    signals: Signals,
    explanation: string,
    mitigations: seq<string>)

  /** A stored analysis: the fields sent to `create` and the id the store
      assigned. */
  datatype Record = Record(id: Id, draft: Draft)

  /** The sum of the scores (`reduce((sum, a) => sum + a.score, 0)`). */
  function SumScores(rs: seq<Record>): int {
    if |rs| == 0 then 0 else rs[0].draft.score + SumScores(rs[1..])
  }

  /** Every score lies in `lo..hi`. */
  predicate ScoresWithin(rs: seq<Record>, lo: int, hi: int) {
    forall i :: 0 <= i < |rs| ==> lo <= rs[i].draft.score <= hi
  }

  /** The sum of `n` scores in `lo..hi` lies in `n*lo..n*hi`. */
  lemma {:induction false} SumScoresWithin(rs: seq<Record>, lo: int, hi: int)
    requires ScoresWithin(rs, lo, hi)
    ensures |rs| * lo <= SumScores(rs) <= |rs| * hi
  {
    if |rs| > 0 {
      SumScoresWithin(rs[1..], lo, hi);
      assert |rs| * lo == lo + (|rs| - 1) * lo && |rs| * hi == hi + (|rs| - 1) * hi;
    }
  }
}

=== FILE: result_display.dfy ===
/** The detail card of one analysis: which view is rendered, the colour band
    of the score gauge, the icon and badge chosen by the label, and which
    sections of the card are shown. */
module ResultDisplay {
  import opened Wrappers
  import opened Records
  import opened Labels
  import BatchResults

  /** The colour of the score gauge. */
  datatype Band = Green | Amber | Red

  /** The gauge colour: `score <= 19` green, `score <= 59` amber, red above;
      the label plays no part. */
  function ScoreBand(score: int): (b: Band)
    ensures b == Green <==> score <= 19
    ensures b == Amber <==> 20 <= score <= 59
    ensures b == Red <==> 60 <= score
  {
    if score <= 19 then Green else if score <= 59 then Amber else Red
  }

  /** The bands in order of increasing risk. */
  function BandRank(b: Band): nat {
    match b
    case Green => 0
    case Amber => 1
    case Red => 2
  }

  /** A higher score never moves the gauge to a lower band. */
  lemma ScoreBandMonotone(a: int, b: int)
    requires a <= b
    ensures BandRank(ScoreBand(a)) <= BandRank(ScoreBand(b))
  {
  }

  /** The header icon. */
  datatype Icon = CheckIcon | AlertIcon | CrossIcon | ShieldIcon

  /** `getRiskIcon`: a check, a warning triangle or a cross for the three
      labels, and the plain shield for any other label. */
  function RiskIcon(riskLabel: string): (icon: Icon)
    ensures icon == CheckIcon <==> riskLabel == NoRisk
    ensures icon == AlertIcon <==> riskLabel == LowRisk
    ensures icon == CrossIcon <==> riskLabel == HighRisk
    ensures icon == ShieldIcon <==> !IsKnownLabel(riskLabel)
  {
    if riskLabel == NoRisk then CheckIcon
    else if riskLabel == LowRisk then AlertIcon
    else if riskLabel == HighRisk then CrossIcon
    else ShieldIcon
  }

  /** A badge variant. */
  datatype Tone = Secondary | Destructive

  /** The URL-reputation section: the verdict badge and, for a verdict other
      than `safe`, the details line. */
  datatype SafeBrowsingPanel = SafeBrowsingPanel(verdict: string, tone: Tone, details: Option<string>)

  /** The crowdsourced-scan section: the reputation badge. */
  datatype VirusTotalPanel = VirusTotalPanel(reputation: string, tone: Tone)

  /** The text-model section: the summary and the spam and phishing
      percentages (the misinformation probability is not shown). */
  datatype TextModelPanel = TextModelPanel(summary: string, spam: string, phishing: string)

  /** The sections of the evidence breakdown, each present or not. */
  datatype Evidence = Evidence(
    safeBrowsing: Option<SafeBrowsingPanel>,
    virusTotal: Option<VirusTotalPanel>,
    textModel: Option<TextModelPanel>)

  /** `analysis.signals || {}`: a missing signals object reads as the empty
      one. */
  function SignalsOrEmpty(signals: Option<Signals>): (s: Signals)
    ensures signals.None? ==> s == NoSignals
    ensures signals.Some? ==> s == signals.value
  {
    signals.GetOr(NoSignals)
  }

  /** The evidence breakdown: a section for each facet that is present and
      none for an absent one; the safe-browsing badge is destructive and the
      details are shown exactly when the verdict is not `safe`; the scan
      badge is destructive exactly when some engine flagged the content. */
  function EvidenceOf(signals: Signals): (e: Evidence)
    ensures e.safeBrowsing.Some? <==> signals.safeBrowsing.Some?
    ensures e.virusTotal.Some? <==> signals.virusTotal.Some?
    ensures e.textModel.Some? <==> signals.textModel.Some?
    ensures e.safeBrowsing.Some? ==>
              var sb := signals.safeBrowsing.value;
              && e.safeBrowsing.value.verdict == sb.verdict
              && (e.safeBrowsing.value.tone == Destructive <==> sb.verdict != "safe")
              && (e.safeBrowsing.value.details.Some? <==> sb.verdict != "safe")
              && (e.safeBrowsing.value.details.Some? ==> e.safeBrowsing.value.details.value == sb.details)
    ensures e.virusTotal.Some? ==>
              && e.virusTotal.value.reputation == signals.virusTotal.value.reputation
              && (e.virusTotal.value.tone == Destructive <==> signals.virusTotal.value.positives > 0)
    ensures e.textModel.Some? ==>
              var tm := signals.textModel.value;
              e.textModel.value == TextModelPanel(tm.summary, BatchResults.PercentText(tm.spamProb),
                                                  BatchResults.PercentText(tm.phishProb))
  {
    Evidence(
      match signals.safeBrowsing
      case None => None
      case Some(sb) =>
        if sb.verdict == "safe" then Some(SafeBrowsingPanel(sb.verdict, Secondary, None))
        else Some(SafeBrowsingPanel(sb.verdict, Destructive, Some(sb.details))),
      match signals.virusTotal
      case None => None
      case Some(vt) => Some(VirusTotalPanel(vt.reputation, if vt.positives > 0 then Destructive else Secondary)),
      match signals.textModel
      case None => None
      case Some(tm) =>
        Some(TextModelPanel(tm.summary, BatchResults.PercentText(tm.spamProb), BatchResults.PercentText(tm.phishProb))))
  }

  /** A record without signals shows an empty evidence breakdown. */
  lemma MissingSignalsShowNoEvidence()
    ensures EvidenceOf(SignalsOrEmpty(None)) == Evidence(None, None, None)
  {
  }

  /** `analysis.mitigations && analysis.mitigations.length > 0`: the
      recommended actions, when the list is present and not empty. */
  function MitigationsShown(mitigations: Option<seq<string>>): (shown: Option<seq<string>>)
    ensures shown.Some? <==> mitigations.Some? && |mitigations.value| > 0
    ensures shown.Some? ==> shown == mitigations
  {
    if mitigations.Some? && |mitigations.value| > 0 then mitigations else None
  }

  /** The card shown for an analysis. */
  datatype Card = Card(
    icon: Icon,
    badgeStyle: string,
    badgeText: string,
    band: Band,
    confidence: string,
    explanation: string,
    actions: Option<seq<string>>,
    evidence: Evidence)

  /** What the component renders. */
  datatype View = Loading | Nothing | Shown(card: Card)

  /** The card for one stored analysis: icon and badge from the label, the
      gauge band from the score, the confidence as a whole percentage, the
      explanation as stored, the recommended actions when the list is not
      empty, and the evidence from the signals. */
  function CardOf(r: Record): (c: Card)
    ensures c.icon == RiskIcon(r.draft.riskLabel) && c.badgeStyle == RiskColor(r.draft.riskLabel)
    ensures c.badgeText == r.draft.riskLabel && c.band == ScoreBand(r.draft.score)
    ensures c.actions == if |r.draft.mitigations| > 0 then Some(r.draft.mitigations) else None
    ensures c.confidence == BatchResults.PercentText(r.draft.confidence)
    ensures c.explanation == r.draft.explanation
    ensures c.evidence == EvidenceOf(r.draft.signals)
  {
    Card(RiskIcon(r.draft.riskLabel), RiskColor(r.draft.riskLabel), r.draft.riskLabel,
         ScoreBand(r.draft.score), BatchResults.PercentText(r.draft.confidence), r.draft.explanation,
         MitigationsShown(Some(r.draft.mitigations)), EvidenceOf(r.draft.signals))
  }

  /** The component: the loading view while a batch runs, whether or not an
      analysis is given; nothing without an analysis; the card otherwise. */
  function Render(isAnalyzing: bool, analysis: Option<Record>): (v: View)
    ensures isAnalyzing ==> v == Loading
    ensures !isAnalyzing && analysis.None? ==> v == Nothing
    ensures !isAnalyzing && analysis.Some? ==> v == Shown(CardOf(analysis.value))
  {
    if isAnalyzing then Loading
    else if analysis.None? then Nothing
    else Shown(CardOf(analysis.value))
  }

  /** The gauge band follows the score alone: two analyses with the same
      score but any labels get the same band. */
  lemma BandIgnoresLabel(r: Record, otherLabel: string)
    ensures CardOf(r).band == CardOf(r.(draft := r.draft.(riskLabel := otherLabel))).band
  {
  }

  /** Nothing ties the label to the score: a `High Risk` analysis scored 0
      has the cross icon and the red badge next to a green gauge. */
  lemma LabelAndBandCanDisagree(r: Record)
    requires r.draft.riskLabel == HighRisk && r.draft.score == 0
    ensures CardOf(r).icon == CrossIcon && CardOf(r).badgeStyle == HighRiskStyle
    ensures CardOf(r).band == Green
  {
  }
}

=== FILE: seqs.dfy ===
/** Order-preserving selection over sequences: JavaScript's `Array.prototype.filter`
    and `slice(0, n)`, with the facts the rest of the model relies on. */
module Seqs {

  /** `a` can be obtained from `b` by deleting elements, keeping the order of
      the rest. */
  predicate IsSubseq<T(==)>(a: seq<T>, b: seq<T>)
    decreases |b|
  {
    || |a| == 0
    || (|b| > 0 && ((a[0] == b[0] && IsSubseq(a[1..], b[1..])) || IsSubseq(a, b[1..])))
  }

  /** Deleting nothing is deleting elements. */
  lemma {:induction false} SubseqReflexive<T>(a: seq<T>)
    ensures IsSubseq(a, a)
  {
    if |a| > 0 {
      SubseqReflexive(a[1..]);
    }
  }

  /** Deleting elements twice is deleting elements. */
  lemma {:induction false} SubseqTransitive<T>(a: seq<T>, b: seq<T>, c: seq<T>)
    requires IsSubseq(a, b) && IsSubseq(b, c)
    ensures IsSubseq(a, c)
    decreases |c|
  {
    if |a| == 0 {
    } else if b[0] == c[0] && IsSubseq(b[1..], c[1..]) {
      if a[0] == b[0] && IsSubseq(a[1..], b[1..]) {
        SubseqTransitive(a[1..], b[1..], c[1..]);
      } else {
        SubseqTransitive(a, b[1..], c[1..]);
      }
    } else {
      SubseqTransitive(a, b, c[1..]);
    }
  }

  /** The elements of `s` that satisfy `p`, in their original order
      (`s.filter(p)`). */
  function Filter<T(==,!new)>(s: seq<T>, p: T -> bool): (r: seq<T>)
    ensures |r| <= |s|
    ensures forall i :: 0 <= i < |r| ==> p(r[i])
    ensures forall x :: x in r <==> x in s && p(x)
    ensures IsSubseq(r, s)
    ensures |r| == |s| <==> forall i :: 0 <= i < |s| ==> p(s[i])
    ensures r == s <==> forall i :: 0 <= i < |s| ==> p(s[i])
  {
    if |s| == 0 then []
    else
      var rest := Filter(s[1..], p);
      assert s == [s[0]] + s[1..];
      if p(s[0]) then
        assert ([s[0]] + rest)[1..] == rest;
        [s[0]] + rest
      else
        rest
  }

  /** Filtering keeps every copy of an element that satisfies `p` and no
      copy of one that does not. */
  lemma {:induction false} FilterMultiset<T(!new)>(s: seq<T>, p: T -> bool)
    ensures forall x :: multiset(Filter(s, p))[x] == if p(x) then multiset(s)[x] else 0
  {
    if |s| > 0 {
      FilterMultiset(s[1..], p);
      assert s == [s[0]] + s[1..];
    }
  }

  /** Filtering distributes over concatenation. */
  lemma {:induction false} FilterConcat<T(!new)>(a: seq<T>, b: seq<T>, p: T -> bool)
    ensures Filter(a + b, p) == Filter(a, p) + Filter(b, p)
  {
    if |a| == 0 {
      assert a + b == b;
    } else {
      var ab := a + b;
      assert ab[0] == a[0];
      assert ab[1..] == a[1..] + b;
      FilterConcat(a[1..], b, p);
      if p(a[0]) {
        calc {
          Filter(ab, p);
          [a[0]] + Filter(a[1..] + b, p);
          [a[0]] + (Filter(a[1..], p) + Filter(b, p));
          ([a[0]] + Filter(a[1..], p)) + Filter(b, p);
        }
      }
    }
  }

  /** The first `n` elements of `s`, or all of it when it is shorter
      (`s.slice(0, n)` for a non-negative `n`). */
  function Prefix<T>(s: seq<T>, n: nat): (r: seq<T>)
    ensures |r| == if |s| < n then |s| else n
    ensures r <= s
  {
    if |s| <= n then s else s[..n]
  }
}

=== FILE: text.dfy ===
/** The string operations the pages rely on: `trim`, `toLowerCase`,
    `includes`, `split`/`join` on one separator character, and the decimal
    rendering of numbers. A string is a sequence of Unicode scalar values, one
    `char` per code point. JavaScript counts UTF-16 code units instead: the
    two agree inside the Basic Multilingual Plane, and a code point outside it
    is one `char` here but two code units there. */
module Text {

  /** The white-space characters `String.prototype.trim` removes, restricted
      to ASCII white space and the non-ASCII separators named individually by
      the language (no-break space, byte-order mark, line and paragraph
      separator). */
  predicate IsSpace(c: char) {
    || c == ' ' || c == '\t' || c == '\n' || c == '\r'
    || c == '\U{000B}' || c == '\U{000C}'
    || c == '\U{00A0}' || c == '\U{FEFF}' || c == '\U{2028}' || c == '\U{2029}'
  }

  /** Every character of `s` is white space (vacuously true of `""`). */
  predicate IsBlank(s: string) {
    forall i :: 0 <= i < |s| ==> IsSpace(s[i])
  }

  /** The number of white-space characters `s` starts with. */
  function LeadingSpaces(s: string): (k: nat)
    ensures k <= |s|
    ensures forall i :: 0 <= i < k ==> IsSpace(s[i])
    ensures k < |s| ==> !IsSpace(s[k])
  {
    if |s| > 0 && IsSpace(s[0]) then
      var k := LeadingSpaces(s[1..]);
      assert forall i :: 1 <= i < k + 1 ==> s[i] == s[1..][i - 1];
      k + 1
    else 0
  }

  /** The number of white-space characters `s` ends with. */
  function TrailingSpaces(s: string): (k: nat)
    ensures k <= |s|
    ensures forall i :: |s| - k <= i < |s| ==> IsSpace(s[i])
    ensures k < |s| ==> !IsSpace(s[|s| - k - 1])
  {
    if |s| > 0 && IsSpace(s[|s| - 1]) then
      var k := TrailingSpaces(s[..|s| - 1]);
      assert forall i :: |s| - 1 - k <= i < |s| - 1 ==> s[i] == s[..|s| - 1][i];
      k + 1
    else 0
  }

  /** Cutting `lead` leading and `trail` trailing white-space characters
      leaves a middle part of `s` between two blank parts. */
  lemma TrimmedIsMiddle(s: string, lead: nat, trail: nat)
    requires lead + trail <= |s|
    requires forall i :: 0 <= i < lead ==> IsSpace(s[i])
    requires forall i :: |s| - trail <= i < |s| ==> IsSpace(s[i])
    ensures var b := |s| - trail;
      s[lead..][..|s| - lead - trail] == s[lead..b] && IsBlank(s[..lead]) && IsBlank(s[b..])
  {
    var b := |s| - trail;
    assert forall i :: 0 <= i < trail ==> s[b..][i] == s[b + i];
  }

  /** `s.trim()`: the text between the first and the last character that is
      not white space, empty exactly when `s` is blank. */
  function Trim(s: string): (r: string)
    ensures exists a, b :: 0 <= a <= b <= |s| && r == s[a..b] && IsBlank(s[..a]) && IsBlank(s[b..])
    ensures r == [] <==> IsBlank(s)
    ensures r != [] ==> !IsSpace(r[0]) && !IsSpace(r[|r| - 1])
    ensures |r| <= |s|
  {
    var lead := LeadingSpaces(s);
    if lead == |s| then
      assert s[..|s|] == s && IsBlank(s[|s|..]) && s[|s|..|s|] == [];
      []
    else
      var t := s[lead..];
      var trail := TrailingSpaces(t);
      assert t[0] == s[lead] && !IsSpace(t[0]);
      assert trail < |t|;
      TrimmedIsMiddle(s, lead, trail);
      t[..|t| - trail]
  }

  /** ASCII case folding of one character. */
  function LowerChar(c: char): char {
    if 'A' <= c <= 'Z' then (c as int + 32) as char else c
  }

  /** `s.toLowerCase()` over ASCII letters: no capital letter is left, a
      capital becomes its small letter, and every other character stays. */
  function Lower(s: string): (r: string)
    ensures |r| == |s|
    ensures forall i :: 0 <= i < |s| ==> !('A' <= r[i] <= 'Z')
    ensures forall i :: 0 <= i < |s| ==> (r[i] == s[i] <==> !('A' <= s[i] <= 'Z'))
    ensures forall i :: 0 <= i < |s| && 'A' <= s[i] <= 'Z' ==> r[i] as int == s[i] as int + 32
  {
    seq(|s|, i requires 0 <= i < |s| => LowerChar(s[i]))
  }

  /** Lowercasing twice is lowercasing once. */
  lemma LowerIdempotent(s: string)
    ensures Lower(Lower(s)) == Lower(s)
  {
  }

  /** `needle` occurs in `hay` starting at index `i`. */
  predicate OccursAt(hay: string, needle: string, i: int) {
    0 <= i && i + |needle| <= |hay| && hay[i..i + |needle|] == needle
  }

  /** `hay.includes(needle)`; the empty needle occurs in every string, and
      no needle longer than the text is found. */
  predicate Includes(hay: string, needle: string)
    ensures needle <= hay ==> Includes(hay, needle)
    ensures Includes(hay, needle) ==> |needle| <= |hay|
    decreases |hay|
  {
    needle <= hay || (|hay| > 0 && Includes(hay[1..], needle))
  }

  /** An occurrence at index `i` is found by `Includes`. */
  lemma {:induction false} OccursThenIncludes(hay: string, needle: string, i: int)
    requires OccursAt(hay, needle, i)
    ensures Includes(hay, needle)
    decreases i
  {
    if i == 0 {
      assert hay[..|needle|] == needle;
    } else {
      assert hay[1..][i - 1..i - 1 + |needle|] == hay[i..i + |needle|];
      OccursThenIncludes(hay[1..], needle, i - 1);
    }
  }

  /** `Includes` finds a needle exactly when it occurs at some index. */
  lemma {:induction false} IncludesIffOccurs(hay: string, needle: string)
    ensures Includes(hay, needle) <==> exists i :: OccursAt(hay, needle, i)
    decreases |hay|
  {
    if Includes(hay, needle) {
      if needle <= hay {
        assert OccursAt(hay, needle, 0);
      } else {
        IncludesIffOccurs(hay[1..], needle);
        var i :| OccursAt(hay[1..], needle, i);
        assert hay[1..][i..i + |needle|] == hay[i + 1..i + 1 + |needle|];
        assert OccursAt(hay, needle, i + 1);
      }
    }
    forall i | OccursAt(hay, needle, i)
      ensures Includes(hay, needle)
    {
      OccursThenIncludes(hay, needle, i);
    }
  }

  /** `xs.join(sep)`: the parts with one separator between neighbours. */
  function Join(xs: seq<string>, sep: char): (r: string)
    ensures forall c :: c in r ==> c == sep || exists i :: 0 <= i < |xs| && c in xs[i]
  {
    if |xs| == 0 then ""
    else if |xs| == 1 then xs[0]
    else xs[0] + [sep] + Join(xs[1..], sep)
  }

  /** A join starts with its first part and ends with its last. */
  lemma {:induction false} JoinEnds(xs: seq<string>, sep: char)
    requires |xs| >= 1
    ensures xs[0] <= Join(xs, sep)
    ensures var r, last := Join(xs, sep), xs[|xs| - 1];
            |last| <= |r| && r[|r| - |last|..] == last
  {
    if |xs| > 1 {
      JoinEnds(xs[1..], sep);
      var rest := Join(xs[1..], sep);
      var last := xs[|xs| - 1];
      assert xs[1..][|xs[1..]| - 1] == last;
      var r := xs[0] + [sep] + rest;
      assert r[|r| - |last|..] == rest[|rest| - |last|..];
    }
  }

  /** Two parts join with one separator between them. */
  lemma JoinTwo(xs: seq<string>, sep: char)
    requires |xs| == 2
    ensures Join(xs, sep) == xs[0] + [sep] + xs[1]
  {
    assert xs[1..] == [xs[1]];
  }

  /** `s.split(sep)` for a one-character separator: the maximal runs of
      non-separator characters, including empty runs before, between and after
      separators, so `""` splits into `[""]`. */
  function Split(s: string, sep: char): (parts: seq<string>)
    ensures |parts| >= 1
    ensures forall i :: 0 <= i < |parts| ==> sep !in parts[i]
  {
    if |s| == 0 then [""]
    else
      var rest := Split(s[1..], sep);
      if s[0] == sep then [""] + rest
      else [[s[0]] + rest[0]] + rest[1..]
  }

  /** A string without the separator is one part. */
  lemma {:induction false} SplitWithoutSeparator(a: string, sep: char)
    requires sep !in a
    ensures Split(a, sep) == [a]
  {
    if |a| > 0 {
      SplitWithoutSeparator(a[1..], sep);
      assert [a[0]] + a[1..] == a;
    }
  }

  /** The text up to the first separator becomes the first part. */
  lemma {:induction false} SplitAtSeparator(a: string, b: string, sep: char)
    requires sep !in a
    ensures Split(a + [sep] + b, sep) == [a] + Split(b, sep)
  {
    var s := a + [sep] + b;
    if |a| == 0 {
      assert s[0] == sep && s[1..] == b;
    } else {
      SplitAtSeparator(a[1..], b, sep);
      assert s[0] == a[0] && s[1..] == a[1..] + [sep] + b;
      assert [a[0]] + a[1..] == a;
    }
  }

  /** Splitting a joined list gives the list back when no part contains the
      separator and the list is not empty. */
  lemma {:induction false} SplitJoin(xs: seq<string>, sep: char)
    requires |xs| >= 1
    requires forall i :: 0 <= i < |xs| ==> sep !in xs[i]
    ensures Split(Join(xs, sep), sep) == xs
  {
    if |xs| == 1 {
      SplitWithoutSeparator(xs[0], sep);
    } else {
      SplitJoin(xs[1..], sep);
      SplitAtSeparator(xs[0], Join(xs[1..], sep), sep);
      assert [xs[0]] + xs[1..] == xs;
    }
  }

  /** Joining the parts of a split gives the string back. */
  lemma {:induction false} JoinSplit(s: string, sep: char)
    ensures Join(Split(s, sep), sep) == s
  {
    if |s| > 0 {
      JoinSplit(s[1..], sep);
      var rest := Split(s[1..], sep);
      assert s == [s[0]] + s[1..];
      if s[0] == sep {
        assert ([""] + rest)[1..] == rest;
      } else if |rest| == 1 {
      } else {
        var parts := [[s[0]] + rest[0]] + rest[1..];
        assert parts[1..] == rest[1..];
      }
    }
  }

  /** The digit character of a value below ten. */
  function DigitChar(d: nat): char
    requires d < 10
  {
    ('0' as int + d) as char
  }

  /** True when every character is an ASCII digit. */
  predicate IsDigits(s: string) {
    forall i :: 0 <= i < |s| ==> '0' <= s[i] <= '9'
  }

  /** The number a string of decimal digits denotes. */
  function DigitsValue(s: string): nat
    requires IsDigits(s)
  {
    if |s| == 0 then 0
    else DigitsValue(s[..|s| - 1]) * 10 + (s[|s| - 1] as int - '0' as int)
  }

  /** The decimal rendering of a natural number: at least one digit and no
      leading zero. This is what `String(n)` gives for a whole number below
      1e21; from there on JavaScript switches to exponent notation. */
  function NatToString(n: nat): (r: string)
    ensures |r| >= 1 && IsDigits(r)
    ensures |r| > 1 ==> r[0] != '0'
    ensures DigitsValue(r) == n
  {
    if n < 10 then [DigitChar(n)]
    else
      var r := NatToString(n / 10) + [DigitChar(n % 10)];
      assert r[..|r| - 1] == NatToString(n / 10);
      r
  }

  /** A canonical decimal numeral: at least one digit and no leading zero
      unless it is the single digit `0`. */
  predicate IsNumeral(s: string) {
    |s| >= 1 && IsDigits(s) && (|s| > 1 ==> s[0] != '0')
  }

  /** A numeral that starts with a non-zero digit denotes a positive number. */
  lemma {:induction false} LeadingDigitPositive(s: string)
    requires |s| >= 1 && IsDigits(s) && s[0] != '0'
    ensures DigitsValue(s) >= 1
    decreases |s|
  {
    if |s| > 1 {
      var p := s[..|s| - 1];
      assert p[0] == s[0];
      LeadingDigitPositive(p);
    }
  }

  /** `NatToString` is the only canonical numeral: every numeral is the
      rendering of the number it denotes. */
  lemma {:induction false} NumeralIsNatToString(s: string)
    requires IsNumeral(s)
    ensures NatToString(DigitsValue(s)) == s
    decreases |s|
  {
    var n := DigitsValue(s);
    if |s| > 1 {
      var p := s[..|s| - 1];
      var d := s[|s| - 1] as int - '0' as int;
      assert p[0] == s[0];
      LeadingDigitPositive(p);
      if |p| > 1 {
        NumeralIsNatToString(p);
      } else {
        assert NatToString(DigitsValue(p)) == [DigitChar(DigitsValue(p))] == p;
      }
      assert n == DigitsValue(p) * 10 + d && 0 <= d < 10;
      assert n / 10 == DigitsValue(p) && n % 10 == d;
      assert DigitChar(d) == s[|s| - 1];
      assert s == p + [s[|s| - 1]];
    } else {
      assert s[..|s| - 1] == [] && DigitsValue(s[..|s| - 1]) == 0;
      assert n == s[0] as int - '0' as int;
    }
  }

  /** The decimal rendering of an integer: the numeral of its magnitude,
      behind a `-` when negative. It agrees with `String(n)` for a whole
      number of magnitude below 1e21 only. */
  function IntToString(n: int): (r: string)
    ensures n >= 0 ==> IsNumeral(r) && DigitsValue(r) == n
    ensures n < 0 ==> |r| >= 2 && r[0] == '-' && IsNumeral(r[1..]) && DigitsValue(r[1..]) == -n
  {
    if n < 0 then
      var digits := NatToString(-n);
      assert ("-" + digits)[1..] == digits;
      "-" + digits
    else NatToString(n)
  }
}

=== FILE: wrappers.dfy ===
/** Optional values and the outcome of a group of foreign calls joined with
    `Promise.all`: each call either produced a value (`Some`) or rejected (`None`). */
module Wrappers {

  /** A value that may be absent: a JavaScript field that is `undefined`, or a
      call that rejected. */
  datatype Option<+T> = None | Some(value: T) {

    /** The value if present, `default` otherwise (JavaScript's `x || default`
        for values that are truthy whenever present). */
    function GetOr(default: T): (r: T)
      ensures Some? ==> r == value
      ensures None? ==> r == default
    {
      match this
      case Some(v) => v
      case None => default
    }
  }

  /** True when every call of a joined group succeeded, that is, when
      `Promise.all` resolves instead of rejecting. */
  predicate AllSome<T>(xs: seq<Option<T>>) {
    forall i :: 0 <= i < |xs| ==> xs[i].Some?
  }

  /** The values of a group of successful calls, in call order (the array
      `Promise.all` resolves to). */
  function Values<T>(xs: seq<Option<T>>): (vs: seq<T>)
    requires AllSome(xs)
    ensures |vs| == |xs|
    ensures forall i :: 0 <= i < |xs| ==> xs[i] == Some(vs[i])
  {
    seq(|xs|, i requires 0 <= i < |xs| && xs[i].Some? => xs[i].value)
  }
}
